=== FILE: README.md ===
# mkdocs_auto_gen_nav in Dafny

A model of the two halves of the repository's navigation tooling, with proofs
of what they promise.

- **The manifest generator** (`gen_pages.py`) turns each first-level folder of
  the documentation root into a `.pages` manifest.
  - It reads every `*.md` file's YAML front matter, except `index.md` in any
    letter case.
  - Each file gets a title: the front-matter `title`, or its file name
    title-cased.
  - Files with an `order` come first, ascending by order and then by file name.
    The rest follow, ascending by file name.
  - Each file becomes one `- <title>: <name>` line.
- **The navigation macros** (`macros/main.py`) do two things:
  - `section_cards` renders one card per direct child of the current section.
  - The `on_nav` hook walks the navigation tree. It back-fills a page's `weight`
    from `sidebar_position` when `weight` is missing. Then, for each group of
    siblings, it warns about every weight shared by two or more siblings.

Modules, in dependency order:

| module | file | contents |
|---|---|---|
| `Results` | `results.dfy` | `Option` and `Result` |
| `Strings` | `strings.dfy` | ASCII helpers, `str.split`/`join`, lexicographic string order |
| `Sequences` | `sequences.dfy` | filter, filter-map, and an insertion sort with its uniqueness theorem |
| `Values` | `values.dfy` | YAML values as Python sees them: truthiness, `str()`, numeric value |
| `FrontMatter` | `frontmatter.dfy` | `extract_frontmatter` |
| `Manifest` | `manifest.dfy` | `get_page_title`, `get_sort_key`, `generate_pages_file`, `main` |
| `Nav` | `nav.dfy` | the navigation tree, `_page_info`, `_link_for_section`, `_item_info`, `_index_page`, `_section_for_page`, `_count_children` |
| `Cards` | `cards.dfy` | `section_cards` |
| `Weights` | `weights.dfy` | `_apply_sidebar_weight` on one page's metadata |
| `Conflicts` | `conflicts.dfy` | `_get_weight`, `_warn_conflicts` |
| `Walk` | `walk.dfy` | `_walk_sections`, `on_nav` |

How the model handles the outside world:

- **Host objects.** The host's duck-typed pages, sections and links become one
  `Node` datatype: `PageItem | SectionItem | LinkItem`.
- **Front-matter values.** These are the `Value` datatype. A finite float
  carries both its number and the text `str()` gives for it. The infinities
  and NaN are values of their own. Where Python compares numbers, they
  become a `Number`: `NegInf`, `Finite`, `PosInf` or `NaN`, ordered as
  Python's `<` and `==` order them.
- **The file system.** It becomes data:
  - a folder's `*.md` files are a sequence of `SourceFile`, with the content
    `None` when reading fails;
  - the documentation root is `None` when it is missing.
- **YAML parsing.** `yaml.safe_load` is a function parameter `parse`.
- **The weight pass.** The host mutates pages in place and logs warnings. The
  model instead returns the back-filled tree and a list of `Warning` records,
  in logging order.
- **Exceptions** the code lets escape become `Err`:
  - `sorted` raising `TypeError` on `order` values of different kinds;
  - `float()` raising `ValueError` on a `sidebar_position` such as `--3`.

Behaviours of the code worth knowing, each of which the model keeps:

- **Two inputs stop the build.**
  - A `sidebar_position` of `--3` passes the `lstrip("-")` numeral test, and
    then `float("--3")` raises `ValueError` (macros/main.py:208-210).
  - A folder whose `order` values mix numbers and text makes `sorted` raise
    `TypeError` (gen_pages.py:64-70).
- **Negative integers become floats.** `str(-2)` fails `isdigit()`, so a
  `sidebar_position` of `-2` is stored as the float weight `-2.0`
  (macros/main.py:209-210).
- **The index document is excluded in any letter case.** `INDEX.md` is left
  out too (gen_pages.py:65).

## Model

| member | source | states |
|---|---|---|
| FrontMatter.Block | gen_pages.py:32-34 | a block is found exactly when the text starts with `---\n` and a `\n---` occurs after it; the block is the text up to the first such close |
| FrontMatter.BlockOfDelimited | gen_pages.py:32 | wrapping a body that holds no early `\n---` in delimiters and matching again gives the body back, whatever follows |
| FrontMatter.BlockIsDelimited | gen_pages.py:32 | every matched block is such a body, and the text is `---\n` + block + `\n---` + the rest |
| FrontMatter.Extract | gen_pages.py:22-39 | an unreadable file, no leading `---`, no closing delimiter, or YAML that is not a mapping all give the empty mapping; a block that parses to a mapping gives exactly that mapping |
| Manifest.StemOfMarkdown | gen_pages.py:47 | the stem of `<base>.md` is `<base>` |
| Manifest.TitleCaseChars | gen_pages.py:47 | `str.title()` upper-cases exactly the letters that start a word and lower-cases every other letter |
| Manifest.TitleCaseIdempotent | gen_pages.py:47 | title-casing twice is title-casing once |
| Manifest.FallbackTitle | gen_pages.py:47 | character by character, the file-name title is `str.title()` of the stem with `_` and `-` turned into spaces; it has no `_` or `-` |
| Manifest.FallbackTitleFixpoint | gen_pages.py:47 | a fallback title, used as a file name again, gives itself back |
| Manifest.PageTitle | gen_pages.py:42-47 | the front-matter `title` wins when present; otherwise the title is the file-name title |
| Manifest.OrderOf | gen_pages.py:50-57 | a file is unordered exactly when `order` is absent or null; a number (`bool`, the infinities and NaN included) orders as that number, text by the text, and anything else is of another kind |
| Manifest.SortsBeforeStrict | gen_pages.py:50-57 | over distinct file names with comparable orders, the sort key is a strict total order |
| Manifest.EntriesCount | gen_pages.py:64-65 | one entry per listed file; no entries exactly when no file is listed |
| Manifest.BuildWith | gen_pages.py:60-89 | fails exactly when a number and a text order (or either and an order of another kind) meet; writes nothing exactly when no file is listed; otherwise the text is the lines of the arranged files joined by newlines |
| Manifest.ManifestOrder | gen_pages.py:64-70 | the arranged files are a permutation of the listed ones; ordered files come first, ascending by order (`-inf` below and `inf` above every finite number) and then by name; unordered files follow, ascending by name |
| Manifest.InfiniteOrderLast | gen_pages.py:50-70 | a file whose `order` is `.inf` comes after every file with a finite numeric order |
| Manifest.NumberOrdersNeverFail | gen_pages.py:50-70 | when every `order` is absent or a number, NaN and the infinities included, the manifest is built without error |
| Manifest.ArrangedFromListed | gen_pages.py:64-70 | each manifest line comes from a listed file of the folder |
| Manifest.ManifestListsEachFile | gen_pages.py:65 | a file appears in the manifest exactly when it is `*.md` and not `index.md` in any letter case |
| Manifest.ManifestListsOnce | gen_pages.py:64-70 | no file appears twice |
| Manifest.ArrangeIndependentOfListing | gen_pages.py:64-70 | any two directory listings of the same files arrange into the same order |
| Manifest.ManifestIndependentOfListing | gen_pages.py:60-89 | the manifest text does not depend on the order the directory lists its files in |
| Manifest.ManifestLines | gen_pages.py:75-86 | when no title or name holds a newline, the text splits back into exactly one `- <title>: <name>` line per listed file, in manifest order |
| Manifest.ScanOrderSpec | gen_pages.py:104-105 | `main` visits, in ascending name order, exactly the directories not starting with `.` and not named `site` |
| Manifest.GenerateFor | gen_pages.py:72-88 | a run succeeds exactly when every visited folder's manifest does; every manifest produced is written to `<folder>/.pages`; every file written is some visited folder's own manifest at that folder's path |
| Manifest.GenerateForWrites | gen_pages.py:72-88 | a successful run writes, in folder order, exactly one file per folder that has a manifest, holding that manifest, and nothing for a folder without listed files |
| Manifest.GenerateCoversScannedFolders | gen_pages.py:92-109 | a successful run writes the manifest of every scanned folder that has one; each file written is a scanned folder's own manifest; a folder without listed files gets no `.pages` |
| Nav.LinkUrl | macros/main.py:17-19 | a non-empty `abs_url` is the link; otherwise `url` is; there is none exactly when both are missing (or `abs_url` is empty) |
| Nav.Description | macros/main.py:22-24 | a truthy `description` is kept as it is; a missing or falsy one becomes the empty text |
| Nav.PageInfo | macros/main.py:15-25 | a page gives no info exactly when it has no URL; otherwise its title, its URL and its description |
| Nav.IndexPosition | macros/main.py:30-33 | finds the first index-page child, and none exactly when no child is an index page |
| Nav.IndexPage | macros/main.py:178-183 | a section has an index page exactly when some child is one; it is the first such child |
| Nav.LinkForSectionChoice | macros/main.py:28-42 | the first index page decides the section link, or else the first page; the URL and description are that page's, and the title is the section's own unless that is empty |
| Nav.LinkForSectionWithoutPages | macros/main.py:34-37 | a section without page children has no link |
| Nav.ItemInfo | macros/main.py:45-51 | a page gives its own title, URL and description when it has a URL; a section gives the URL and description of its first index page, else of its first page, under its own title unless that is empty; a link item or a section without pages gives nothing |
| Nav.SectionInfoFromChild | macros/main.py:34-42 | a section's link is one of its page children's own link, renamed to the section's title when that is not empty; no page child with a link means no section link |
| Nav.FindSection | macros/main.py:56-65 | whatever the walk returns is a section whose index page comes from the given file |
| Nav.FindSectionIsFirstInPreOrder | macros/main.py:54-67 | the walk returns exactly the first section in pre-order whose index page comes from the file, and none when no section qualifies |
| Nav.SectionForPage | macros/main.py:54-67 | no navigation gives no section; a section found has the current page as its index page |
| Cards.CardFor | macros/main.py:93-111 | a child gets a card exactly when it is not an index page and its link resolves; a page card shows the page's description; title and URL come from the child's link |
| Cards.SectionCards | macros/main.py:78-92 | no current page gives no cards; a section parent gives the cards of its children; otherwise the section whose index page is the current page gives its children's cards, and no such section gives none |
| Cards.CardsForAppend | macros/main.py:92-123 | the cards of consecutive runs of children concatenate |
| Cards.CardsInChildOrder | macros/main.py:92-123 | the cards are exactly those of the children that get one, one each, in child order |
| Cards.CardsWhenAllResolve | macros/main.py:92-126 | when every non-index child resolves, there is one card per non-index child |
| Cards.SectionCardCount | macros/main.py:70-72 | a sub-section card's `<n> item(s)` line reads back as the number of the sub-section's direct children, index page included |
| Weights.SidebarText | macros/main.py:207-208 | only `int`, `float` and `str` values (`bool`, the infinities and NaN included) are looked at, through their `str()` text |
| Weights.DigitsLookNumeric | macros/main.py:209 | all-digit text passes the numeral test |
| Weights.ParseFloat | macros/main.py:210 | `float` fails on an accepted numeral exactly when it starts with `--`; otherwise it gives the signed value the numeral denotes |
| Weights.SidebarWeight | macros/main.py:205-210 | no weight exactly when the value is of another type or fails the test; all-digit text gives the integer it spells; other text gives what `float` makes of it, an error exactly when it starts with `--` |
| Weights.FloatSidebar | macros/main.py:210 | text that passes the test without being all digits is read as a float |
| Weights.Backfill | macros/main.py:197-211 | metadata with a `weight`, or without `sidebar_position`, is unchanged; otherwise a non-numeric value changes nothing, a numeric one adds exactly the derived `weight`, and `--` text fails |
| Weights.BackfillAdds | macros/main.py:205-211 | a numeric-looking `sidebar_position` adds exactly its derived weight |
| Weights.BackfillNonNumeric | macros/main.py:205-209 | a `sidebar_position` of another type, or one whose text fails the numeral test, leaves the metadata unchanged |
| Weights.WordNotNumeric | macros/main.py:209 | a word such as `first` fails the numeral test |
| Weights.NonFiniteSidebar | macros/main.py:205-209 | an infinite or NaN `sidebar_position` is looked at, as a `float`, but its text `inf`, `-inf` or `nan` fails the numeral test, so the metadata stays as it is |
| Weights.BackfillIdempotent | macros/main.py:205 | back-filling twice is back-filling once |
| Weights.BackfillWholeNumber | macros/main.py:209-210 | `3` or `"3"` becomes the integer weight 3 |
| Weights.BackfillFraction | macros/main.py:209-210 | `"3.5"` or `"-.25"` becomes a float weight with the value the numeral denotes |
| Weights.BackfillNegativeInt | macros/main.py:209-210 | a negative integer becomes a float weight of the same value |
| Weights.BackfillDoubleMinus | macros/main.py:209-210 | `"--<digits>"` passes the test and then makes `float` raise |
| Conflicts.WeightPage | macros/main.py:188-190 | a page's weight lives in its own metadata, a section's in its first index child's; a link, or a section without an index page, has none |
| Conflicts.WeightOf | macros/main.py:186-194 | a sibling has a weight exactly when its weight page holds an `int`, finite `float` or `bool` `weight`, and the weight is that value |
| Conflicts.ParentName | macros/main.py:230 | the parent named is the label, or `root` when the label is empty |
| Conflicts.Weighed | macros/main.py:217-221 | the weighted siblings, each with the number its weight stands for |
| Conflicts.GroupAllDescribes | macros/main.py:216-223 | the dictionary has one entry per number. Each entry holds the first weight written for that number and the titles of all siblings with it, in order. Every sibling's number has an entry |
| Conflicts.Dictionary | macros/main.py:214-223 | the dictionary's titles for each number are the titles of the siblings whose weight is that number |
| Conflicts.ConflictsReported | macros/main.py:214-232 | each warning names the parent (or `root`). It lists, in sibling order, the titles of all siblings sharing its weight, at least two of them |
| Conflicts.ConflictsDistinct | macros/main.py:225-232 | no number is reported twice for a group of siblings |
| Conflicts.ConflictsComplete | macros/main.py:214-232 | every number shared by two or more siblings is reported |
| Walk.BackfillNode | macros/main.py:197-211 | back-filling a sibling fails exactly when back-filling its weight page does |
| Walk.BackfillAll | macros/main.py:217-218 | the loop succeeds exactly when every sibling's back-fill does, and gives each sibling back-filled in place |
| Walk.SubLabel | macros/main.py:240 | a sub-section is reported under its own title, or its parent's label when the title is empty |
| Walk.Filled | macros/main.py:205-211 | back-fill keeps every key, may add only `weight`, and what it adds is numeric |
| Walk.WalkIsFillThenCheck | macros/main.py:235-240 | the walk fails exactly when some page's back-fill fails. Otherwise it gives the tree with every page back-filled, plus that tree's warnings: the group's own first, then each sub-section's in order |
| Walk.OnNavIsFillThenCheck | macros/main.py:243-246 | the hook back-fills every page and reports every sibling group, the top one under `root`, unless some back-fill fails |
| Walk.FillAllIdempotent | macros/main.py:197-211 | back-filling a whole tree twice is back-filling it once |
| Walk.OnNavIdempotent | macros/main.py:243-246 | running the hook again on the tree it back-filled changes nothing and logs the same warnings |

## Left out

- File reading, globbing and directory listing: these are inputs. A folder's files arrive already listed, with the content `None` when reading fails.
- Symbolic links and sub-directories named `*.md`: the glob would match them; the model lists files only.
- YAML parsing: `yaml.safe_load` is the parameter `parse`. The `or {}` for an empty document is folded into its result.
- Writing through `mkdocs_gen_files.open` and the progress lines `main` prints: a run returns the `(path, text)` pairs it would write.
- `page.read_source`: metadata is taken as already loaded. Loading it and reading it again is not modelled, and neither is a page whose `meta` is empty until loaded.
- `Walk.WalkIsFillThenCheck`: assumes that `page.read_source` leaves a loaded `meta` as it is. `_get_weight` calls it (macros/main.py:191) after the back-fill has written `weight` (macros/main.py:210-211). If the host reloads `meta` from the file there, the back-filled weight is gone before it is read. `_page_info` guards its own call (macros/main.py:20-21) for this reason. Python would then warn only about explicit `weight` keys, where the model also checks the back-filled ones.
- `Cards.SectionCards`: the HTML and CSS markup around the cards (`macros/main.py:128-171`) is not modelled. The cards come back as records, and no cards stands for the empty string.
- `Conflicts.ConflictsReported`: the text of the log line is not modelled. Each warning is a record of the weight as written, the parent and the titles.
- `Walk.WalkIsFillThenCheck`: when a back-fill raises part-way, the warnings already logged are lost; the model returns only the error.
- `Walk.WalkIsFillThenCheck`: when a walk can fail in more than one place, which error is raised first is not compared.
- `Manifest.GenerateFor`: when a later folder's `sorted` raises `TypeError`, the `.pages` files Python has already written for earlier folders stay on disk, and their progress lines are printed. The model returns only the error.
- `Manifest.ManifestOrder`: states nothing about `order` values that are neither numbers nor text (lists, mappings, dates). Python compares some of these among themselves. The model treats them as incomparable with numbers and text, and leaves their order among themselves unstated.
- `Manifest.ManifestOrder`: states nothing when some `order` is NaN. NaN is neither below, above nor equal to any number, so the keys are not totally ordered. The model's `Same` treats every NaN as unequal to every other. PyYAML, however, returns one shared NaN object for every `.nan`, and tuple comparison checks identity before `==`, so in Python two `.nan` orders compare by file name. Python's `sorted` then gives an arrangement that depends on its algorithm. The model sorts too, but which arrangement it gives is not promised to match.
- `Manifest.TitleCaseChars`: ASCII letters only. Python's `str.title()` and `str.isdigit()` know all of Unicode, and Unicode case mapping is not modelled.
- `Weights.ParseFloat`: the weight is the exact number the numeral denotes, not the nearest double. Its shown text matches Python's `str()` only for numerals of at most 15 significant digits whose magnitude is zero or between 1e-4 and 1e16. Python prints other values as the shortest round-trip text, in exponent notation outside that range. The shown text is never compared, but it is what a back-filled float weight carries into `Warning.weight`. So two siblings with `sidebar_position: "0.00001"` give a warning whose weight shows `0.00001`, where Python logs `1e-05`. The difference can only be seen in the log text, which is not modelled (see `Conflicts.ConflictsReported` above).
- `Conflicts.WeightOf`: a `weight` that is an infinite or NaN float (`.inf`, `.nan` in YAML) counts as no weight, because sibling weights are grouped by finite number. Python keeps it, so two `.inf` siblings would be reported there and are not here. The same holds for two `.nan` siblings: PyYAML's one shared NaN object is a single dictionary key, because dictionary lookup checks identity before `==`.
- `Manifest.BuildWith`: two `order` values that are both of another kind (lists, mappings, dates) never fail here. Python compares two lists or two dates but raises `TypeError` for two mappings or a list and a mapping, and the model does not tell these kinds apart.
- `Manifest.BuildWith`: when some `order` is NaN, the manifest text lists the right files, but their arrangement is not promised to be the one Python's `sorted` gives.
- `Nav.PageInfo`: a page's `title` is always text; the host's `None` title is not modelled.
- `Nav.CountChildren` has no contract of its own. `Cards.CardFor` uses it for a sub-section card's detail, and `Cards.SectionCardCount` states the count.
- Truthiness of host objects (`if not section`, `if nav`): a section and a navigation are always truthy in the model, and an empty navigation is an empty item list.

=== FILE: cards.dfy ===
/**
  The `section_cards` macro: one card for each direct child of the section the
  current page belongs to, in child order. A page card shows the page's
  description; a sub-section card shows how many children that sub-section
  has. The HTML each card is rendered to is not modelled: a card is its title,
  URL, detail text and kind, and an empty card list stands for the empty
  output.
*/
module Cards {
  import opened Results
  import opened Strings
  import opened Sequences
  import opened Values
  import opened Nav

  datatype Kind = PageCard | SectionCard

  datatype Card = Card(title: string, url: string, detail: string, kind: Kind)

  const ItemsSuffix: string := " item(s)"

  /** The detail line of a sub-section card, `f"{n} item(s)"`. */
  function CountText(n: nat): string {
    NatToString(n) + ItemsSuffix
  }

  /** Reads a sub-section card's detail line back as a number. */
  function ParseCount(detail: string): Option<nat> {
    if EndsWith(detail, ItemsSuffix) && IsDigits(detail[..|detail| - |ItemsSuffix|])
    then Some(DigitsValue(detail[..|detail| - |ItemsSuffix|]))
    else None
  }

  /**
    The card one child gets: index pages and links get none, and neither does
    a child whose link cannot be resolved.
  */
  function CardFor(child: Node): (r: Option<Card>)
    ensures r.Some? <==> !IsIndexPage(child) && ItemInfo(child).Some?
    ensures r.Some? ==> r.value.title == ItemInfo(child).value.title && r.value.url == ItemInfo(child).value.url
    ensures r.Some? ==> (r.value.kind == PageCard <==> child.PageItem?)
    ensures r.Some? && child.PageItem? ==> r.value.detail == Display(Description(child.page.meta))
  {
    match child
    case PageItem(p) =>
      if p.isIndex then None
      else
        (match PageInfo(p)
         case None => None
         case Some(info) => Some(Card(info.title, info.url, Display(info.desc), PageCard)))
    case SectionItem(title, children) =>
      (match LinkForSection(title, children)
       case None => None
       case Some(info) => Some(Card(info.title, info.url, CountText(CountChildren(child)), SectionCard)))
    case LinkItem(_) => None
  }

  predicate HasCard(child: Node) { CardFor(child).Some? }

  /** The card loop of `section_cards` over a list of children. */
  function CardsFor(children: seq<Node>): seq<Card> {
    FilterMap(children, CardFor)
  }

  /**
    `section_cards`: nothing without a current page; the section is the page's
    parent when that is a section, and otherwise the section whose index page
    is the current page.
  */
  function SectionCards(nav: Option<seq<Node>>, page: Option<Page>, parent: Option<Node>): (r: seq<Card>)
    ensures page.None? ==> r == []
    ensures page.Some? && parent.Some? && parent.value.SectionItem? ==> r == CardsFor(parent.value.children)
    ensures page.Some? && !(parent.Some? && parent.value.SectionItem?) && SectionForPage(nav, page.value).None?
            ==> r == []
    ensures page.Some? && !(parent.Some? && parent.value.SectionItem?) && SectionForPage(nav, page.value).Some?
            ==> r == CardsFor(SectionForPage(nav, page.value).value.children)
  {
    match page
    case None => []
    case Some(p) =>
      var section :=
        if parent.Some? && parent.value.SectionItem? then parent else SectionForPage(nav, p);
      match section
      case None => []
      case Some(s) => CardsFor(s.children)
  }

  /** Cards of consecutive runs of children are the concatenation of their cards. */
  lemma CardsForAppend(a: seq<Node>, b: seq<Node>)
    ensures CardsFor(a + b) == CardsFor(a) + CardsFor(b)
  {
    FilterMapAppend(a, b, CardFor);
  }

  /**
    The cards are exactly the cards of the children that get one, one each,
    in child order.
  */
  lemma CardsInChildOrder(children: seq<Node>)
    ensures var kept := Filter(children, HasCard);
            && |CardsFor(children)| == |kept|
            && forall i :: 0 <= i < |kept| ==> CardsFor(children)[i] == CardFor(kept[i]).value
  {
    FilterMapIsFilter(children, CardFor, HasCard);
  }

  /**
    When every child other than an index page resolves to a link, there is one
    card per such child.
  */
  lemma CardsWhenAllResolve(children: seq<Node>)
    requires forall i :: 0 <= i < |children| && !IsIndexPage(children[i]) ==> ItemInfo(children[i]).Some?
    ensures |CardsFor(children)| == |Filter(children, (n: Node) => !IsIndexPage(n))|
  {
    FilterCongruent(children, HasCard, (n: Node) => !IsIndexPage(n));
    CardsInChildOrder(children);
  }

  /** A sub-section card's detail reads back as the number of that sub-section's children, index page included. */
  lemma SectionCardCount(title: string, children: seq<Node>)
    requires CardFor(SectionItem(title, children)).Some?
    ensures CardFor(SectionItem(title, children)).value.kind == SectionCard
    ensures ParseCount(CardFor(SectionItem(title, children)).value.detail) == Some(|children|)
  {
    var d := CountText(|children|);
    assert d[..|d| - |ItemsSuffix|] == NatToString(|children|);
    assert d[|d| - |ItemsSuffix|..] == ItemsSuffix;
  }
}

=== FILE: conflicts.dfy ===
/**
  The duplicate-weight check for one group of siblings (`_warn_conflicts`):
  siblings are grouped by the number their weight stands for, in the order the
  numbers first appear, and every group of two or more gives one warning.
*/
module Conflicts {
  import opened Results
  import opened Sequences
  import opened Values
  import opened Nav
  import opened Weights

  /** The page whose metadata holds a node's weight: the page itself, or a section's index page. */
  function WeightPage(n: Node): (r: Option<Page>)
    ensures r.Some? <==> n.PageItem? || (n.SectionItem? && exists i :: 0 <= i < |n.children| && IsIndexPage(n.children[i]))
    ensures r.Some? && n.PageItem? ==> r.value == n.page
    ensures r.Some? && n.SectionItem? ==>
              r.value.isIndex && n.children[IndexPosition(n.children).value] == PageItem(r.value)
  {
    match n
    case PageItem(p) => Some(p)
    case SectionItem(_, _) => IndexPage(n)
    case LinkItem(_) => None
  }

  /** `_get_weight`: the `weight` of the node's page when it is an `int`, finite `float` or `bool`. */
  function WeightOf(n: Node): (r: Option<Value>)
    ensures r.Some? ==> Numeric(r.value).Some?
    ensures r.Some? <==> WeightPage(n).Some? && "weight" in WeightPage(n).value.meta
                         && Numeric(WeightPage(n).value.meta["weight"]).Some?
    ensures r.Some? ==> r.value == WeightPage(n).value.meta["weight"]
  {
    match WeightPage(n)
    case None => None
    case Some(p) =>
      if "weight" in p.meta && Numeric(p.meta["weight"]).Some? then Some(p.meta["weight"]) else None
  }

  /** The title a warning lists for a sibling. */
  function TitleOf(n: Node): string {
    match n
    case PageItem(p) => p.title
    case SectionItem(title, _) => title
    case LinkItem(title) => title
  }

  /** The parent a warning names: `parent_label or "root"`. */
  function ParentName(parentLabel: string): (r: string)
    ensures r != ""
    ensures parentLabel != "" ==> r == parentLabel
    ensures parentLabel == "" ==> r == "root"
  {
    if parentLabel == "" then "root" else parentLabel
  }

  /** A sibling that has a weight: the weight as written, the number it stands for, and the sibling's title. */
  datatype Weighted = Weighted(weight: Value, key: real, title: string)

  /** The siblings that have a weight, in sibling order. */
  function Weighed(items: seq<Node>): (r: seq<Weighted>)
    ensures |r| <= |items|
    ensures forall i :: 0 <= i < |r| ==> Numeric(r[i].weight) == Some(r[i].key)
    decreases |items|
  {
    if items == [] then []
    else
      (match WeightOf(items[0])
       case None => []
       case Some(w) => [Weighted(w, Numeric(w).value, TitleOf(items[0]))])
      + Weighed(items[1..])
  }

  /** An entry of the `weights` dictionary: the first weight inserted for a number, and the titles appended under it. */
  datatype Group = Group(weight: Value, key: real, titles: seq<string>)

  /** Where the dictionary holds the number `key`, if it does. */
  function FindKey(groups: seq<Group>, key: real): (r: Option<nat>)
    ensures r.Some? ==> r.value < |groups| && groups[r.value].key == key
    ensures r.None? <==> forall j :: 0 <= j < |groups| ==> groups[j].key != key
  {
    if groups == [] then None
    else if groups[0].key == key then Some(0)
    else
      match FindKey(groups[1..], key)
      case None => None
      case Some(j) => Some(j + 1)
  }

  /** `weights.setdefault(weight, []).append(title)`. */
  function AddTo(groups: seq<Group>, w: Weighted): seq<Group> {
    match FindKey(groups, w.key)
    case Some(j) => groups[j := groups[j].(titles := groups[j].titles + [w.title])]
    case None => groups + [Group(w.weight, w.key, [w.title])]
  }

  /** The `weights` dictionary after the loop over the siblings, in insertion order. */
  function GroupAll(ws: seq<Weighted>): seq<Group>
    decreases |ws|
  {
    if ws == [] then [] else AddTo(GroupAll(ws[..|ws| - 1]), ws[|ws| - 1])
  }

  datatype Warning = Warning(weight: Value, parent: string, titles: seq<string>)

  predicate Collides(g: Group) { |g.titles| > 1 }

  /** One warning per dictionary entry holding more than one title, in dictionary order. */
  function WarningsOf(groups: seq<Group>, parent: string): (r: seq<Warning>) {
    var shared := Filter(groups, Collides);
    seq(|shared|, i requires 0 <= i < |shared| => Warning(shared[i].weight, parent, shared[i].titles))
  }

  /** `_warn_conflicts` once its siblings are back-filled: the warnings for one group of siblings. */
  function WarnConflicts(items: seq<Node>, parentLabel: string): seq<Warning> {
    WarningsOf(GroupAll(Weighed(items)), ParentName(parentLabel))
  }

  // A reference description of the dictionary, read off the siblings directly.

  /** The titles of the weighted siblings whose weight is the number `key`, in sibling order. */
  function TitlesWith(ws: seq<Weighted>, key: real): seq<string>
    decreases |ws|
  {
    if ws == [] then []
    else (if ws[0].key == key then [ws[0].title] else []) + TitlesWith(ws[1..], key)
  }

  /** The weight, as written, of the first sibling whose weight is the number `key`. */
  function FirstWeight(ws: seq<Weighted>, key: real): Option<Value>
    decreases |ws|
  {
    if ws == [] then None
    else if ws[0].key == key then Some(ws[0].weight)
    else FirstWeight(ws[1..], key)
  }

  /** The titles of the siblings whose weight is the number `key`, in sibling order. */
  function SharedTitles(items: seq<Node>, key: real): seq<string>
    decreases |items|
  {
    if items == [] then []
    else
      (if WeightOf(items[0]).Some? && Numeric(WeightOf(items[0]).value) == Some(key)
       then [TitleOf(items[0])] else [])
      + SharedTitles(items[1..], key)
  }

  lemma {:induction false} TitlesWithSnoc(ws: seq<Weighted>, w: Weighted, key: real)
    ensures TitlesWith(ws + [w], key) == TitlesWith(ws, key) + (if w.key == key then [w.title] else [])
    decreases |ws|
  {
    if ws == [] {
      assert ws + [w] == [w];
    } else {
      assert (ws + [w])[1..] == ws[1..] + [w];
      TitlesWithSnoc(ws[1..], w, key);
    }
  }

  lemma {:induction false} FirstWeightSnoc(ws: seq<Weighted>, w: Weighted, key: real)
    ensures FirstWeight(ws + [w], key) ==
            if FirstWeight(ws, key).Some? then FirstWeight(ws, key)
            else if w.key == key then Some(w.weight) else None
    decreases |ws|
  {
    if ws == [] {
      assert ws + [w] == [w];
    } else {
      assert (ws + [w])[1..] == ws[1..] + [w];
      FirstWeightSnoc(ws[1..], w, key);
    }
  }

  /** A number no weighted sibling has collects no titles. */
  lemma {:induction false} TitlesWithAbsent(ws: seq<Weighted>, key: real)
    requires forall i :: 0 <= i < |ws| ==> ws[i].key != key
    ensures TitlesWith(ws, key) == [] && FirstWeight(ws, key).None?
    decreases |ws|
  {
    if ws != [] {
      TitlesWithAbsent(ws[1..], key);
    }
  }

  /**
    The dictionary describes the siblings: one entry per number, each holding
    the first weight written for it and the titles of every sibling with that
    number, and every sibling's number has an entry.
  */
  ghost predicate Describes(ws: seq<Weighted>, groups: seq<Group>) {
    && (forall i, j :: 0 <= i < j < |groups| ==> groups[i].key != groups[j].key)
    && (forall i :: 0 <= i < |groups| ==> groups[i].titles == TitlesWith(ws, groups[i].key))
    && (forall i :: 0 <= i < |groups| ==> FirstWeight(ws, groups[i].key) == Some(groups[i].weight))
    && (forall i :: 0 <= i < |ws| ==> FindKey(groups, ws[i].key).Some?)
  }

  /** Every sibling's number still has an entry when the entries keep their numbers and gain `w`'s. */
  lemma KeysKept(ws: seq<Weighted>, groups: seq<Group>, groups': seq<Group>)
    requires forall i :: 0 <= i < |ws| ==> FindKey(groups, ws[i].key).Some?
    requires |groups| <= |groups'|
    requires forall k :: 0 <= k < |groups| ==> groups'[k].key == groups[k].key
    ensures forall i :: 0 <= i < |ws| ==> FindKey(groups', ws[i].key).Some?
  {
    forall i | 0 <= i < |ws|
      ensures FindKey(groups', ws[i].key).Some?
    {
      var k := FindKey(groups, ws[i].key).value;
      assert groups'[k].key == ws[i].key;
    }
  }

  /** A sibling whose number already has an entry appends its title there. */
  lemma AddToExisting(ws: seq<Weighted>, groups: seq<Group>, w: Weighted, j: nat)
    requires Describes(ws, groups)
    requires FindKey(groups, w.key) == Some(j)
    ensures Describes(ws + [w], AddTo(groups, w))
  {
    var ws' := ws + [w];
    var gs' := AddTo(groups, w);
    assert gs' == groups[j := groups[j].(titles := groups[j].titles + [w.title])];
    forall i | 0 <= i < |gs'|
      ensures gs'[i].titles == TitlesWith(ws', gs'[i].key)
      ensures FirstWeight(ws', gs'[i].key) == Some(gs'[i].weight)
    {
      TitlesWithSnoc(ws, w, gs'[i].key);
      FirstWeightSnoc(ws, w, gs'[i].key);
    }
    assert FindKey(gs', w.key).Some? by { assert gs'[j].key == w.key; }
    KeysKept(ws, groups, gs');
    forall i | 0 <= i < |ws'|
      ensures FindKey(gs', ws'[i].key).Some?
    {
      if i < |ws| {
        assert ws'[i] == ws[i];
      }
    }
  }

  /** A number the dictionary lacks belongs to no sibling seen so far. */
  lemma NewKeyUnseen(ws: seq<Weighted>, groups: seq<Group>, key: real)
    requires forall i :: 0 <= i < |ws| ==> FindKey(groups, ws[i].key).Some?
    requires FindKey(groups, key).None?
    ensures forall i :: 0 <= i < |ws| ==> ws[i].key != key
  {
    forall i | 0 <= i < |ws|
      ensures ws[i].key != key
    {
      var k := FindKey(groups, ws[i].key).value;
      assert groups[k].key == ws[i].key;
    }
  }

  /** Entries with distinct numbers stay distinct when one with a new number is added. */
  lemma DistinctSnoc(groups: seq<Group>, g: Group)
    requires forall i, j :: 0 <= i < j < |groups| ==> groups[i].key != groups[j].key
    requires FindKey(groups, g.key).None?
    ensures forall i, j :: 0 <= i < j < |groups + [g]| ==> (groups + [g])[i].key != (groups + [g])[j].key
  {
    var gs' := groups + [g];
    forall i, j | 0 <= i < j < |gs'|
      ensures gs'[i].key != gs'[j].key
    {
      assert gs'[i] == groups[i];
      if j == |groups| {
        assert gs'[j] == g;
      } else {
        assert gs'[j] == groups[j];
      }
    }
  }

  /** An entry for another number is unaffected by a new sibling. */
  lemma EntryKept(ws: seq<Weighted>, g: Group, w: Weighted)
    requires g.titles == TitlesWith(ws, g.key) && FirstWeight(ws, g.key) == Some(g.weight)
    requires g.key != w.key
    ensures g.titles == TitlesWith(ws + [w], g.key) && FirstWeight(ws + [w], g.key) == Some(g.weight)
  {
    TitlesWithSnoc(ws, w, g.key);
    FirstWeightSnoc(ws, w, g.key);
  }

  /** A sibling whose number nobody had opens the entry holding just its weight and title. */
  lemma EntryOpened(ws: seq<Weighted>, w: Weighted)
    requires forall i :: 0 <= i < |ws| ==> ws[i].key != w.key
    ensures TitlesWith(ws + [w], w.key) == [w.title] && FirstWeight(ws + [w], w.key) == Some(w.weight)
  {
    TitlesWithAbsent(ws, w.key);
    TitlesWithSnoc(ws, w, w.key);
    FirstWeightSnoc(ws, w, w.key);
  }

  /** A sibling with a new number opens an entry at the end. */
  lemma AddToNew(ws: seq<Weighted>, groups: seq<Group>, w: Weighted)
    requires Describes(ws, groups)
    requires FindKey(groups, w.key).None?
    ensures Describes(ws + [w], AddTo(groups, w))
  {
    var ws' := ws + [w];
    var entry := Group(w.weight, w.key, [w.title]);
    var gs' := groups + [entry];
    assert AddTo(groups, w) == gs';
    NewKeyUnseen(ws, groups, w.key);
    forall i | 0 <= i < |gs'|
      ensures gs'[i].titles == TitlesWith(ws', gs'[i].key)
      ensures FirstWeight(ws', gs'[i].key) == Some(gs'[i].weight)
    {
      if i < |groups| {
        assert gs'[i] == groups[i];
        EntryKept(ws, groups[i], w);
      } else {
        assert gs'[i] == entry;
        EntryOpened(ws, w);
      }
    }
    DistinctSnoc(groups, entry);
    assert FindKey(gs', w.key).Some? by { assert gs'[|groups|].key == w.key; }
    KeysKept(ws, groups, gs');
    forall i | 0 <= i < |ws'|
      ensures FindKey(gs', ws'[i].key).Some?
    {
      if i < |ws| {
        assert ws'[i] == ws[i];
      }
    }
  }

  /** The dictionary built by the loop describes the siblings. */
  lemma {:induction false} GroupAllDescribes(ws: seq<Weighted>)
    ensures Describes(ws, GroupAll(ws))
    decreases |ws|
  {
    if ws != [] {
      var front := ws[..|ws| - 1];
      var w := ws[|ws| - 1];
      assert ws == front + [w];
      assert GroupAll(ws) == AddTo(GroupAll(front), w);
      GroupAllDescribes(front);
      match FindKey(GroupAll(front), w.key)
      case Some(j) => AddToExisting(front, GroupAll(front), w, j);
      case None => AddToNew(front, GroupAll(front), w);
      assert front + [ws[|ws| - 1]] == ws;
    }
  }

  /** The dictionary's titles for a number are the titles of the siblings with that number. */
  lemma {:induction false} WeighedTitles(items: seq<Node>, key: real)
    ensures TitlesWith(Weighed(items), key) == SharedTitles(items, key)
    decreases |items|
  {
    if items != [] {
      WeighedTitles(items[1..], key);
      var head := match WeightOf(items[0])
        case None => []
        case Some(w) => [Weighted(w, Numeric(w).value, TitleOf(items[0]))];
      TitlesWithAppend(head, Weighed(items[1..]), key);
    }
  }

  lemma {:induction false} TitlesWithAppend(a: seq<Weighted>, b: seq<Weighted>, key: real)
    ensures TitlesWith(a + b, key) == TitlesWith(a, key) + TitlesWith(b, key)
    decreases |a|
  {
    if a == [] {
      assert a + b == b;
    } else {
      assert (a + b)[1..] == a[1..] + b;
      TitlesWithAppend(a[1..], b, key);
    }
  }

  /** Where a sibling's weight sits among the weighted siblings. */
  lemma {:induction false} WeighedHas(items: seq<Node>, i: nat)
    requires i < |items| && WeightOf(items[i]).Some?
    ensures exists k :: 0 <= k < |Weighed(items)| && Weighed(items)[k].key == Numeric(WeightOf(items[i]).value).value
    decreases |items|
  {
    var r := Weighed(items);
    if i == 0 {
      assert r[0].key == Numeric(WeightOf(items[0]).value).value;
    } else {
      WeighedHas(items[1..], i - 1);
      var rest := Weighed(items[1..]);
      var k :| 0 <= k < |rest| && rest[k].key == Numeric(WeightOf(items[1..][i - 1]).value).value;
      assert r[|r| - |rest| + k] == rest[k];
    }
  }

  /** The warnings are the colliding dictionary entries, one each, in dictionary order. */
  lemma WarningsOfEntries(groups: seq<Group>, parent: string)
    ensures var shared := Filter(groups, Collides);
            var r := WarningsOf(groups, parent);
            && |r| == |shared|
            && forall i :: 0 <= i < |r| ==> r[i] == Warning(shared[i].weight, parent, shared[i].titles)
  {
  }

  /** The dictionary of a group of siblings, read off the siblings directly. */
  lemma Dictionary(items: seq<Node>)
    ensures var ws := Weighed(items);
            var gs := GroupAll(ws);
            && Describes(ws, gs)
            && (forall i :: 0 <= i < |gs| ==> Numeric(gs[i].weight) == Some(gs[i].key))
            && (forall i :: 0 <= i < |gs| ==> gs[i].titles == SharedTitles(items, gs[i].key))
  {
    var ws := Weighed(items);
    var gs := GroupAll(ws);
    GroupAllDescribes(ws);
    forall i | 0 <= i < |gs|
      ensures Numeric(gs[i].weight) == Some(gs[i].key)
      ensures gs[i].titles == SharedTitles(items, gs[i].key)
    {
      FirstWeightNumeric(ws, gs[i].key);
      WeighedTitles(items, gs[i].key);
    }
  }

  /**
    Each warning of a sibling group names the parent (or `root`) and lists, in
    sibling order, the titles of all siblings whose weight stands for its
    number, of which there are at least two.
  */
  lemma ConflictsReported(items: seq<Node>, parentLabel: string)
    ensures var r := WarnConflicts(items, parentLabel);
            forall i :: 0 <= i < |r| ==>
              && r[i].parent == ParentName(parentLabel)
              && Numeric(r[i].weight).Some?
              && r[i].titles == SharedTitles(items, Numeric(r[i].weight).value)
              && |r[i].titles| >= 2
  {
    var gs := GroupAll(Weighed(items));
    var shared := Filter(gs, Collides);
    var r := WarnConflicts(items, parentLabel);
    WarningsOfEntries(gs, ParentName(parentLabel));
    Dictionary(items);
    forall i | 0 <= i < |r|
      ensures Numeric(r[i].weight) == Some(shared[i].key)
      ensures r[i].titles == SharedTitles(items, shared[i].key)
    {
      assert shared[i] in gs;
      var j :| 0 <= j < |gs| && gs[j] == shared[i];
    }
  }

  /** No number is reported twice for one group of siblings. */
  lemma ConflictsDistinct(items: seq<Node>, parentLabel: string)
    ensures var r := WarnConflicts(items, parentLabel);
            forall i, j :: 0 <= i < j < |r| ==> Numeric(r[i].weight) != Numeric(r[j].weight)
  {
    var gs := GroupAll(Weighed(items));
    var shared := Filter(gs, Collides);
    var r := WarnConflicts(items, parentLabel);
    WarningsOfEntries(gs, ParentName(parentLabel));
    Dictionary(items);
    var differ := (a: Group, b: Group) => a.key != b.key;
    assert Sorted(gs, differ);
    FilterSorted(gs, Collides, differ);
    forall i | 0 <= i < |r|
      ensures Numeric(r[i].weight) == Some(shared[i].key)
    {
      assert shared[i] in gs;
      var j :| 0 <= j < |gs| && gs[j] == shared[i];
    }
  }

  /** A colliding dictionary entry gives a warning with its weight. */
  lemma EntryReported(groups: seq<Group>, parent: string, j: nat)
    requires j < |groups| && Collides(groups[j])
    ensures var r := WarningsOf(groups, parent);
            exists k :: 0 <= k < |r| && r[k].weight == groups[j].weight
  {
    var shared := Filter(groups, Collides);
    WarningsOfEntries(groups, parent);
    assert groups[j] in shared;
    var k :| 0 <= k < |shared| && shared[k] == groups[j];
    assert WarningsOf(groups, parent)[k].weight == groups[j].weight;
  }

  /** Every number that the weights of two or more siblings stand for is reported. */
  lemma ConflictsComplete(items: seq<Node>, parentLabel: string, i: nat)
    requires i < |items| && WeightOf(items[i]).Some?
    requires |SharedTitles(items, Numeric(WeightOf(items[i]).value).value)| >= 2
    ensures var r := WarnConflicts(items, parentLabel);
            exists k :: 0 <= k < |r| && Numeric(r[k].weight) == Numeric(WeightOf(items[i]).value)
  {
    var ws := Weighed(items);
    var gs := GroupAll(ws);
    var key := Numeric(WeightOf(items[i]).value).value;
    WeighedHas(items, i);
    GroupAllDescribes(ws);
    var m :| 0 <= m < |ws| && ws[m].key == key;
    var j := FindKey(gs, key).value;
    assert gs[j].titles == TitlesWith(ws, key) && FirstWeight(ws, key) == Some(gs[j].weight);
    WeighedTitles(items, key);
    assert Collides(gs[j]);
    FirstWeightNumeric(ws, key);
    var r := WarningsOf(gs, ParentName(parentLabel));
    assert r == WarnConflicts(items, parentLabel);
    EntryReported(gs, ParentName(parentLabel), j);
    var k :| 0 <= k < |r| && r[k].weight == gs[j].weight;
    assert Numeric(r[k].weight) == Some(key);
  }

  /** The first weight written for a number stands for that number. */
  lemma {:induction false} FirstWeightNumeric(ws: seq<Weighted>, key: real)
    requires forall i :: 0 <= i < |ws| ==> Numeric(ws[i].weight) == Some(ws[i].key)
    requires FirstWeight(ws, key).Some?
    ensures Numeric(FirstWeight(ws, key).value) == Some(key)
    decreases |ws|
  {
    if ws[0].key != key {
      FirstWeightNumeric(ws[1..], key);
    }
  }
}

=== FILE: frontmatter.dfy ===
/**
  Front-matter extraction (`extract_frontmatter` in gen_pages.py): locating the
  `---` delimited block at the very start of a document. Parsing the block as
  YAML is not part of the model; it is a parameter of type `string -> Parsed`.
*/
module FrontMatter {
  import opened Results
  import opened Strings
  import opened Values

  /** What `yaml.safe_load` makes of the block: a mapping, another document, or an exception. */
  datatype Parsed = Mapping(m: Metadata) | NotMapping | Malformed

  const Open: string := "---\n"
  const Close: string := "\n---"

  /** The closing delimiter `\n---` starts at position `p` of `c`. */
  predicate CloseAt(c: string, p: nat) {
    p + |Close| <= |c| && c[p..p + |Close|] == Close
  }

  /** The first closing delimiter at or after `p`. */
  function FindClose(c: string, p: nat): (r: Option<nat>)
    requires p <= |c|
    ensures r.Some? ==> p <= r.value && CloseAt(c, r.value)
    ensures r.Some? ==> forall q :: p <= q < r.value ==> !CloseAt(c, q)
    ensures r.None? ==> forall q :: p <= q ==> !CloseAt(c, q)
    decreases |c| - p
  {
    if p + |Close| > |c| then None
    else if CloseAt(c, p) then Some(p)
    else FindClose(c, p + 1)
  }

  /**
    The group `re.match(r"^---\n(.*?)\n---", content, re.DOTALL)` captures:
    the shortest text between an opening `---\n` at the start and the next `\n---`.
  */
  function Block(c: string): (r: Option<string>)
    ensures r.Some? <==> StartsWith(c, Open) && exists p :: |Open| <= p && CloseAt(c, p)
    ensures r.Some? ==> StartsWith(c, Open + r.value + Close)
    ensures r.Some? ==> forall q :: |Open| <= q < |Open| + |r.value| ==> !CloseAt(c, q)
  {
    if !StartsWith(c, Open) then None
    else
      match FindClose(c, |Open|)
      case None => None
      case Some(p) =>
        var body := c[|Open|..p];
        assert c[..|Open + body + Close|] == c[..|Open|] + c[|Open|..p] + c[p..p + |Close|];
        Some(body)
  }

  /** `body` holds no `\n---` that would end the block before its own end. */
  predicate NoEarlyClose(body: string) {
    forall q :: 0 <= q < |body| ==> !CloseAt(body + Close, q)
  }

  /** Wrapping a body in delimiters and locating the block gives the body back. */
  lemma {:induction false} BlockOfDelimited(body: string, rest: string)
    requires NoEarlyClose(body)
    ensures Block(Open + body + Close + rest) == Some(body)
  {
    var c := Open + body + Close + rest;
    assert c == Open + (body + Close) + rest;
    assert c[..|Open|] == Open;
    var p := |Open| + |body|;
    assert c[p..p + |Close|] == Close;
    assert CloseAt(c, p);
    forall q | |Open| <= q < p
      ensures !CloseAt(c, q)
    {
      assert !CloseAt(body + Close, q - |Open|);
      assert c[q..q + |Close|] == (body + Close)[q - |Open|..q - |Open| + |Close|];
    }
    var r := Block(c);
    assert r.Some?;
    var n := |Open| + |r.value|;
    assert c[..|Open + r.value + Close|] == Open + r.value + Close;
    assert c[n..n + |Close|] == (Open + r.value + Close)[n..n + |Close|];
    assert CloseAt(c, n);
    assert |r.value| == |body|;
    assert c[..|Open| + |body|] == Open + body;
  }

  /** Every block found is the body of a delimited prefix with no earlier close. */
  lemma BlockIsDelimited(c: string)
    requires Block(c).Some?
    ensures var body := Block(c).value;
      NoEarlyClose(body) && c == Open + body + Close + c[|Open + body + Close|..]
  {
    var body := Block(c).value;
    var n := |Open + body + Close|;
    assert c[..n] == Open + body + Close;
    assert c == c[..n] + c[n..];
    forall q | 0 <= q < |body|
      ensures !CloseAt(body + Close, q)
    {
      assert !CloseAt(c, q + |Open|);
      assert (body + Close)[q..q + |Close|] == c[q + |Open|..q + |Open| + |Close|];
    }
  }

  /**
    `extract_frontmatter`: the parsed block when it is a mapping, otherwise the
    empty mapping. `content` is `None` when reading the file failed.
  */
  function Extract(content: Option<string>, parse: string -> Parsed): (fm: Metadata)
    ensures content.None? ==> fm == map[]
    ensures content.Some? && !StartsWith(content.value, "---") ==> fm == map[]
    ensures content.Some? && Block(content.value).None? ==> fm == map[]
    ensures content.Some? && Block(content.value).Some? && !parse(Block(content.value).value).Mapping? ==> fm == map[]
    ensures content.Some? && Block(content.value).Some? && parse(Block(content.value).value).Mapping?
            ==> fm == parse(Block(content.value).value).m
    ensures fm != map[] ==> content.Some? && Block(content.value).Some? && parse(Block(content.value).value) == Mapping(fm)
  {
    match content
    case None => map[]
    case Some(c) =>
      if !StartsWith(c, "---") then map[]
      else
        match Block(c)
        case None => map[]
        case Some(body) =>
          match parse(body)
          case Mapping(m) => m
          case _ => map[]
  }
}

=== FILE: manifest.dfy ===
/**
  The folder ordering manifest (the `.pages` file) that gen_pages.py writes for
  every documentation folder: which markdown files it lists, in which order,
  under which titles, and how the lines are rendered.
*/
module Manifest {
  import opened Results
  import opened Strings
  import opened Sequences
  import opened Values
  import opened FrontMatter

  /** A directory entry matched by `*.md`; `content` is `None` when reading it fails. */
  datatype SourceFile = SourceFile(name: string, content: Option<string>)

  predicate NamesDistinct(files: seq<SourceFile>) {
    forall i, j :: 0 <= i < j < |files| ==> files[i].name != files[j].name
  }

  // ----- Titles -------------------------------------------------------------

  /** Position of the last `.` in `s` (`str.rfind`). */
  function LastDot(s: string): (r: Option<nat>)
    ensures r.Some? ==> r.value < |s| && s[r.value] == '.'
    ensures r.Some? ==> forall k :: r.value < k < |s| ==> s[k] != '.'
    ensures r.None? ==> forall k :: 0 <= k < |s| ==> s[k] != '.'
    decreases |s|
  {
    if s == [] then None
    else if s[|s| - 1] == '.' then Some(|s| - 1)
    else LastDot(s[..|s| - 1])
  }

  /** `Path(name).stem`: the name without its last suffix; a leading or final dot starts no suffix. */
  function Stem(name: string): string {
    match LastDot(name)
    case Some(i) => if 0 < i < |name| - 1 then name[..i] else name
    case None => name
  }

  lemma StemOfMarkdown(base: string)
    requires |base| > 0
    ensures Stem(base + ".md") == base
  {
    var name := base + ".md";
    assert name[|base|] == '.';
    assert name[|base| + 1] == 'm' && name[|base| + 2] == 'd';
    assert name[..|base|] == base;
  }

  /** `str.title()` on ASCII text, scanning with "the previous character was a letter". */
  function TitleFrom(s: string, afterLetter: bool): (r: string)
    ensures |r| == |s|
    decreases |s|
  {
    if s == [] then ""
    else
      var c := s[0];
      var c' := if !IsLetter(c) then c else if afterLetter then ToLower(c) else ToUpper(c);
      [c'] + TitleFrom(s[1..], IsLetter(c))
  }

  function TitleCase(s: string): (r: string)
    ensures |r| == |s|
  {
    TitleFrom(s, false)
  }

  /** Position `i` of `s` starts a word: nothing cased precedes it directly. */
  predicate WordStart(s: string, i: nat)
    requires i < |s|
  {
    i == 0 || !IsLetter(s[i - 1])
  }

  /** The character `str.title()` puts at one position. */
  function TitledChar(s: string, i: nat): char
    requires i < |s|
  {
    if !IsLetter(s[i]) then s[i]
    else if WordStart(s, i) then ToUpper(s[i])
    else ToLower(s[i])
  }

  /** The first character `TitleFrom` produces is the one `str.title()` puts there. */
  lemma TitleFromHead(s: string, afterLetter: bool, prev: string)
    requires s != []
    requires |prev| > 0 ==> afterLetter == IsLetter(prev[|prev| - 1])
    requires |prev| == 0 ==> !afterLetter
    ensures TitleFrom(s, afterLetter)[0] == TitledChar(prev + s, |prev|)
  {
    var whole := prev + s;
    assert whole[|prev|] == s[0];
    if |prev| > 0 {
      assert whole[|prev| - 1] == prev[|prev| - 1];
    }
  }

  lemma {:induction false} TitleFromChars(s: string, afterLetter: bool, prev: string)
    requires |prev| > 0 ==> afterLetter == IsLetter(prev[|prev| - 1])
    requires |prev| == 0 ==> !afterLetter
    ensures forall i :: 0 <= i < |s| ==> TitleFrom(s, afterLetter)[i] == TitledChar(prev + s, |prev| + i)
    decreases |s|
  {
    if s != [] {
      var prev' := prev + [s[0]];
      assert prev' + s[1..] == prev + s;
      TitleFromChars(s[1..], IsLetter(s[0]), prev');
      TitleFromHead(s, afterLetter, prev);
      var t := TitleFrom(s, afterLetter);
      var rest := TitleFrom(s[1..], IsLetter(s[0]));
      forall i | 1 <= i < |s|
        ensures t[i] == TitledChar(prev + s, |prev| + i)
      {
        assert t[i] == rest[i - 1];
        assert |prev'| + (i - 1) == |prev| + i;
      }
    }
  }

  /** `str.title()` upper-cases exactly the letters that start a word and lower-cases the others. */
  lemma TitleCaseChars(s: string)
    ensures forall i :: 0 <= i < |s| ==> TitleCase(s)[i] == TitledChar(s, i)
  {
    TitleFromChars(s, false, "");
    assert "" + s == s;
  }

  /** Title-casing twice is title-casing once. */
  lemma TitleCaseIdempotent(s: string)
    ensures TitleCase(TitleCase(s)) == TitleCase(s)
  {
    var t := TitleCase(s);
    TitleCaseChars(s);
    TitleCaseChars(t);
    assert forall i :: 0 <= i < |s| ==> (IsLetter(t[i]) <==> IsLetter(s[i]));
    forall i | 0 <= i < |t|
      ensures TitleCase(t)[i] == t[i]
    {
      if i > 0 {
        assert IsLetter(t[i - 1]) <==> IsLetter(s[i - 1]);
      }
    }
  }

  /** `s` with `_` and `-` replaced by spaces. */
  function Spaced(s: string): string {
    ReplaceChar(ReplaceChar(s, '_', ' '), '-', ' ')
  }

  /**
    The title derived from a file name: the stem with `_` and `-` turned into
    spaces, then title-cased.
  */
  function FallbackTitle(name: string): (r: string)
    ensures |r| == |Stem(name)|
    ensures forall i :: 0 <= i < |r| ==> r[i] == TitledChar(Spaced(Stem(name)), i)
    ensures '_' !in r && '-' !in r
  {
    var spaced := Spaced(Stem(name));
    TitleCaseChars(spaced);
    assert forall i :: 0 <= i < |spaced| ==> spaced[i] != '_' && spaced[i] != '-';
    TitleCase(spaced)
  }

  /** A fallback title used as a file stem again yields itself. */
  lemma FallbackTitleFixpoint(name: string)
    requires |Stem(name)| > 0
    ensures FallbackTitle(FallbackTitle(name) + ".md") == FallbackTitle(name)
  {
    var t := FallbackTitle(name);
    StemOfMarkdown(t);
    var spaced := Spaced(t);
    assert spaced == t;
    var inner := Spaced(Stem(name));
    TitleCaseIdempotent(inner);
  }

  /** `get_page_title`: the front-matter title when present, otherwise the fallback. */
  function PageTitle(name: string, fm: Metadata): (r: string)
    ensures "title" in fm ==> r == Display(fm["title"])
    ensures "title" !in fm ==> r == FallbackTitle(name) && '_' !in r && '-' !in r
  {
    if "title" in fm then Display(fm["title"]) else FallbackTitle(name)
  }

  // ----- Sort keys ----------------------------------------------------------

  /** The front-matter `order`, grouped by how Python compares it. */
  datatype Order = Unordered | ByNumber(n: Number) | ByText(t: string) | ByOther

  function OrderOf(fm: Metadata): (o: Order)
    ensures o.Unordered? <==> "order" !in fm || fm["order"] == Null
    ensures "order" in fm && NumberOf(fm["order"]).Some? ==> o == ByNumber(NumberOf(fm["order"]).value)
    ensures "order" in fm && fm["order"].Text? ==> o == ByText(fm["order"].s)
    ensures "order" in fm && fm["order"].Other? ==> o == ByOther
  {
    if "order" !in fm then Unordered
    else
      match fm["order"]
      case Null => Unordered
      case Text(t) => ByText(t)
      case Other(_, _) => ByOther
      case v => ByNumber(NumberOf(v).value)
  }

  /** One listed file with its title and sort key. */
  datatype Entry = Entry(name: string, title: string, order: Order)

  function EntryOf(f: SourceFile, parse: string -> Parsed): (e: Entry)
    ensures e.name == f.name
  {
    var fm := Extract(f.content, parse);
    Entry(f.name, PageTitle(f.name, fm), OrderOf(fm))
  }

  /**
    `get_sort_key(a) < get_sort_key(b)`: ordered files first, by order then file
    name; then the rest by file name. Orders of different kinds are incomparable,
    and two files whose orders are numbers and not `Same` (one of them NaN)
    compare on the numbers alone, as tuple comparison does.
  */
  predicate SortsBefore(a: Entry, b: Entry) {
    match (a.order, b.order)
    case (Unordered, Unordered) => Less(a.name, b.name)
    case (Unordered, _) => false
    case (_, Unordered) => true
    case (ByNumber(x), ByNumber(y)) => Below(x, y) || (Same(x, y) && Less(a.name, b.name))
    case (ByText(x), ByText(y)) => Less(x, y) || (x == y && Less(a.name, b.name))
    case _ => false
  }

  predicate SameKind(a: Order, b: Order) {
    (a.ByNumber? && b.ByNumber?) || (a.ByText? && b.ByText?) || (a.ByOther? && b.ByOther?)
  }

  /** Two files carry orders Python cannot compare (`TypeError` from `sorted`). */
  predicate Mixed(es: seq<Entry>) {
    exists i, j :: 0 <= i < |es| && 0 <= j < |es| && !es[i].order.Unordered? && !es[j].order.Unordered?
      && !SameKind(es[i].order, es[j].order)
  }

  /** All orders are numbers other than NaN, or all are text, or absent. */
  predicate Comparable(es: seq<Entry>) {
    !Mixed(es) && forall i :: 0 <= i < |es| ==> !es[i].order.ByOther? && es[i].order != ByNumber(NaN)
  }

  // ----- The manifest -------------------------------------------------------

  /** The glob `*.md` minus `index.md` in any letter case. */
  predicate Listed(f: SourceFile) {
    EndsWith(f.name, ".md") && LowerStr(f.name) != "index.md"
  }

  /**
    How each file gets its title and sort key. The manifest logic below is
    stated for any such function that keeps the file name; `KeyOf` is the one
    gen_pages.py uses, reading the front matter.
  */
  type Key = SourceFile -> Entry

  ghost predicate KeepsName(key: Key) {
    forall f :: key(f).name == f.name
  }

  function KeyOf(parse: string -> Parsed): (key: Key)
    ensures KeepsName(key)
  {
    f => EntryOf(f, parse)
  }

  /** The listed files of a folder, in directory order, with their keys. */
  function Entries(files: seq<SourceFile>, key: Key): (es: seq<Entry>)
    ensures |es| <= |files|
    decreases |files|
  {
    if files == [] then []
    else (if Listed(files[0]) then [key(files[0])] else []) + Entries(files[1..], key)
  }

  /** One entry per listed file. */
  lemma {:induction false} EntriesCount(files: seq<SourceFile>, key: Key)
    ensures |Entries(files, key)| == |Filter(files, Listed)|
    ensures Entries(files, key) == [] <==> forall k :: 0 <= k < |files| ==> !Listed(files[k])
    decreases |files|
  {
    if files != [] {
      EntriesCount(files[1..], key);
      if !Listed(files[0]) {
        assert forall k :: 1 <= k < |files| ==> files[k] == files[1..][k - 1];
      }
    }
  }

  function Line(e: Entry): string {
    "- " + e.title + ": " + e.name
  }

  function Lines(es: seq<Entry>): (ls: seq<string>)
    ensures |ls| == |es|
    ensures forall i :: 0 <= i < |es| ==> ls[i] == Line(es[i])
  {
    seq(|es|, i requires 0 <= i < |es| => Line(es[i]))
  }

  /** The listed files in manifest order. */
  function Arrange(files: seq<SourceFile>, key: Key): seq<Entry> {
    Sort(Entries(files, key), SortsBefore)
  }

  datatype ManifestError = MixedOrderTypes

  /**
    The body of `generate_pages_file` over a folder's `*.md` files: `None`
    when no file is listed (no manifest is written), otherwise the lines
    `- <title>: <name>` joined by newlines.
  */
  function BuildWith(files: seq<SourceFile>, key: Key): (r: Result<Option<string>, ManifestError>)
    ensures r.Err? <==> Mixed(Entries(files, key))
    ensures r == Ok(None) <==> forall k :: 0 <= k < |files| ==> !Listed(files[k])
    ensures r.Ok? && r.value.Some? ==> r.value.value == Join(Lines(Arrange(files, key)), '\n')
  {
    var es := Entries(files, key);
    EntriesCount(files, key);
    if Mixed(es) then
      Err(MixedOrderTypes)
    else
      var sorted := Sort(es, SortsBefore);
      if sorted == [] then
        Ok(None)
      else Ok(Some(Join(Lines(sorted), '\n')))
  }

  /** `generate_pages_file` with titles and orders taken from each file's front matter. */
  function BuildManifest(files: seq<SourceFile>, parse: string -> Parsed): Result<Option<string>, ManifestError> {
    BuildWith(files, KeyOf(parse))
  }

  // ----- Properties of the manifest ----------------------------------------

  predicate EntryNamesDistinct(es: seq<Entry>) {
    forall i, j :: 0 <= i < j < |es| ==> es[i].name != es[j].name
  }

  lemma SortsBeforeTransitive(x: Entry, y: Entry, z: Entry)
    requires SortsBefore(x, y) && SortsBefore(y, z)
    ensures SortsBefore(x, z)
  {
    match (x.order, y.order, z.order)
    case (ByNumber(a), ByNumber(b), ByNumber(c)) =>
      if Same(a, b) && Same(b, c) {
        LessTransitive(x.name, y.name, z.name);
      } else if Below(a, b) && Below(b, c) {
        BelowTransitive(a, b, c);
      }
    case (ByText(a), ByText(b), ByText(c)) =>
      LessIrreflexive(a);
      if a == b && b == c {
        LessTransitive(x.name, y.name, z.name);
      } else if Less(a, b) && Less(b, c) {
        LessTransitive(a, b, c);
      }
    case (Unordered, Unordered, Unordered) =>
      LessTransitive(x.name, y.name, z.name);
    case _ =>
  }

  lemma SortsBeforeIrreflexive(x: Entry)
    ensures !SortsBefore(x, x)
  {
    LessIrreflexive(x.name);
    if x.order.ByText? {
      LessIrreflexive(x.order.t);
    }
  }

  /** Over files with distinct names and comparable orders, the sort key is a strict total order. */
  lemma SortsBeforeStrict(es: seq<Entry>)
    requires Comparable(es) && EntryNamesDistinct(es)
    ensures StrictOrderOn(es, SortsBefore)
  {
    forall x | x in es
      ensures !SortsBefore(x, x)
    {
      SortsBeforeIrreflexive(x);
    }
    forall x, y, z | x in es && y in es && z in es && SortsBefore(x, y) && SortsBefore(y, z)
      ensures SortsBefore(x, z)
    {
      SortsBeforeTransitive(x, y, z);
    }
    forall x, y | x in es && y in es && x != y
      ensures SortsBefore(x, y) || SortsBefore(y, x)
    {
      var i :| 0 <= i < |es| && es[i] == x;
      var j :| 0 <= j < |es| && es[j] == y;
      assert x.name != y.name;
      LessConnected(x.name, y.name);
      if x.order.ByText? && y.order.ByText? && x.order.t != y.order.t {
        LessConnected(x.order.t, y.order.t);
      }
      if x.order.ByNumber? && y.order.ByNumber? {
        BelowTrichotomy(x.order.n, y.order.n);
      }
    }
  }

  /** The position in the directory listing of the file behind entry `i`. */
  ghost function SourceIndex(files: seq<SourceFile>, key: Key, i: nat): (k: nat)
    requires i < |Entries(files, key)|
    ensures k < |files| && Listed(files[k]) && Entries(files, key)[i] == key(files[k])
    decreases |files|
  {
    var rest := Entries(files[1..], key);
    if Listed(files[0]) then
      if i == 0 then 0
      else
        var k := SourceIndex(files[1..], key, i - 1);
        assert Entries(files, key)[i] == rest[i - 1];
        k + 1
    else
      var k := SourceIndex(files[1..], key, i);
      assert Entries(files, key)[i] == rest[i];
      k + 1
  }

  lemma {:induction false} EntriesNamesDistinct(files: seq<SourceFile>, key: Key)
    requires KeepsName(key)
    requires NamesDistinct(files)
    ensures EntryNamesDistinct(Entries(files, key))
    decreases |files|
  {
    if files != [] {
      var tail := files[1..];
      var rest := Entries(tail, key);
      EntriesNamesDistinct(tail, key);
      if Listed(files[0]) {
        var es := Entries(files, key);
        assert es == [key(files[0])] + rest;
        forall i, j | 0 <= i < j < |es|
          ensures es[i].name != es[j].name
        {
          assert es[j] == rest[j - 1];
          if i == 0 {
            var k := SourceIndex(tail, key, j - 1);
            assert tail[k] == files[k + 1];
          } else {
            assert es[i] == rest[i - 1];
          }
        }
      }
    }
  }

  /** A listed file's entry is in the listing. */
  lemma {:induction false} ListedHasEntry(files: seq<SourceFile>, key: Key, k: nat)
    requires k < |files| && Listed(files[k])
    ensures key(files[k]) in Entries(files, key)
    decreases |files|
  {
    if k > 0 {
      ListedHasEntry(files[1..], key, k - 1);
    }
  }

  lemma {:induction false} EntriesAppend(a: seq<SourceFile>, b: seq<SourceFile>, key: Key)
    ensures Entries(a + b, key) == Entries(a, key) + Entries(b, key)
    decreases |a|
  {
    if a != [] {
      assert (a + b)[0] == a[0];
      assert (a + b)[1..] == a[1..] + b;
      var head := if Listed(a[0]) then [key(a[0])] else [];
      assert Entries(a + b, key) == head + Entries(a[1..] + b, key);
      assert Entries(a, key) == head + Entries(a[1..], key);
      EntriesAppend(a[1..], b, key);
      assert head + (Entries(a[1..], key) + Entries(b, key)) == (head + Entries(a[1..], key)) + Entries(b, key);
    } else {
      assert a + b == b;
    }
  }

  /** The entries around one file are that file's entry and the entries of the others. */
  lemma EntriesAround(left: seq<SourceFile>, x: SourceFile, right: seq<SourceFile>, key: Key)
    ensures multiset(Entries(left + [x] + right, key)) == multiset(Entries([x], key)) + multiset(Entries(left + right, key))
  {
    EntriesAppend(left + [x], right, key);
    EntriesAppend(left, [x], key);
    EntriesAppend(left, right, key);
  }

  /** Reordering the directory listing does not change which entries are listed. */
  lemma {:induction false} EntriesPermutation(a: seq<SourceFile>, b: seq<SourceFile>, key: Key)
    requires multiset(a) == multiset(b)
    ensures multiset(Entries(a, key)) == multiset(Entries(b, key))
    decreases |a|
  {
    if a == [] {
      assert |b| == |multiset(b)| == 0;
    } else {
      var x := a[0];
      assert x in multiset(b);
      var k :| 0 <= k < |b| && b[k] == x;
      var left, right := b[..k], b[k + 1..];
      assert b == left + [x] + right;
      MultisetRemove(a, left, right, x);
      EntriesPermutation(a[1..], left + right, key);
      EntriesAround(left, x, right, key);
      assert a == [x] + a[1..];
      EntriesAppend([x], a[1..], key);
    }
  }

  /** The file behind each line of the manifest. */
  lemma ArrangedFromListed(files: seq<SourceFile>, key: Key, i: nat) returns (k: nat)
    requires i < |Arrange(files, key)|
    ensures k < |files| && Listed(files[k]) && Arrange(files, key)[i] == key(files[k])
  {
    var es := Entries(files, key);
    var s := Arrange(files, key);
    assert s[i] in multiset(es);
    var p :| 0 <= p < |es| && es[p] == s[i];
    k := SourceIndex(files, key, p);
  }

  /**
    The manifest order: files with an `order` come first, ascending by order
    and then by file name; files without one follow, ascending by file name.
  */
  lemma ManifestOrder(files: seq<SourceFile>, key: Key)
    requires KeepsName(key)
    requires NamesDistinct(files)
    requires Comparable(Entries(files, key))
    ensures var s := Arrange(files, key);
      && multiset(s) == multiset(Entries(files, key))
      && Sorted(s, SortsBefore)
      && (forall i, j :: 0 <= i < j < |s| && !s[j].order.Unordered? ==> !s[i].order.Unordered?)
      && (forall i, j :: 0 <= i < j < |s| && s[i].order.ByNumber? && s[j].order.ByNumber? ==>
            Below(s[i].order.n, s[j].order.n) || (s[i].order.n == s[j].order.n && Less(s[i].name, s[j].name)))
      && (forall i, j :: 0 <= i < j < |s| && s[i].order.ByText? && s[j].order.ByText? ==>
            Less(s[i].order.t, s[j].order.t) || (s[i].order.t == s[j].order.t && Less(s[i].name, s[j].name)))
      && (forall i, j :: 0 <= i < j < |s| && s[i].order.Unordered? && s[j].order.Unordered? ==>
            Less(s[i].name, s[j].name))
  {
    var es := Entries(files, key);
    EntriesNamesDistinct(files, key);
    SortsBeforeStrict(es);
    SortSorted(es, SortsBefore);
  }

  /**
    A `.inf` order is a number like any other: it sorts after every finite
    order, as `inf` compares above every `int` and `float`.
  */
  lemma InfiniteOrderLast(files: seq<SourceFile>, key: Key, i: nat, j: nat)
    requires KeepsName(key)
    requires NamesDistinct(files)
    requires Comparable(Entries(files, key))
    requires var s := Arrange(files, key);
      && i < |s| && j < |s| && s[i].order == ByNumber(PosInf) && s[j].order.ByNumber? && s[j].order.n.Finite?
    ensures j < i
  {
    ManifestOrder(files, key);
  }

  /**
    Orders that are all numbers, NaN and the infinities included, never make
    the manifest fail: Python compares any two of them without a `TypeError`.
  */
  lemma NumberOrdersNeverFail(files: seq<SourceFile>, key: Key)
    requires forall e | e in Entries(files, key) :: e.order.Unordered? || e.order.ByNumber?
    ensures BuildWith(files, key).Ok?
  {
  }

  /** Comparability is about which orders occur, so it survives reordering. */
  lemma ComparablePermutation(ea: seq<Entry>, eb: seq<Entry>)
    requires multiset(ea) == multiset(eb)
    requires Comparable(ea)
    ensures Comparable(eb)
  {
    forall e | e in eb
      ensures e in ea
    {
      assert e in multiset(eb);
    }
    assert !Mixed(eb) by {
      forall i, j | 0 <= i < |eb| && 0 <= j < |eb| && !eb[i].order.Unordered? && !eb[j].order.Unordered?
        ensures SameKind(eb[i].order, eb[j].order)
      {
        assert eb[i] in ea && eb[j] in ea;
      }
    }
    forall i | 0 <= i < |eb|
      ensures !eb[i].order.ByOther? && eb[i].order != ByNumber(NaN)
    {
      assert eb[i] in ea;
    }
  }

  /** Listings that are reorderings of each other arrange into the same manifest order. */
  lemma ArrangeIndependentOfListing(a: seq<SourceFile>, b: seq<SourceFile>, key: Key)
    requires KeepsName(key)
    requires multiset(a) == multiset(b)
    requires NamesDistinct(a) && NamesDistinct(b)
    requires Comparable(Entries(a, key)) && Comparable(Entries(b, key))
    ensures Arrange(a, key) == Arrange(b, key)
  {
    var ea := Entries(a, key);
    EntriesPermutation(a, b, key);
    ManifestOrder(a, key);
    ManifestOrder(b, key);
    var sa := Arrange(a, key);
    EntriesNamesDistinct(a, key);
    SortsBeforeStrict(ea);
    forall y | y in sa ensures y in ea {
      assert y in multiset(sa);
    }
    StrictOrderOnSubset(ea, sa, SortsBefore);
    SortedUnique(sa, Arrange(b, key), SortsBefore);
  }

  /** The manifest does not depend on the order in which the directory lists its files. */
  lemma ManifestIndependentOfListing(a: seq<SourceFile>, b: seq<SourceFile>, key: Key)
    requires KeepsName(key)
    requires multiset(a) == multiset(b)
    requires NamesDistinct(a) && NamesDistinct(b)
    requires Comparable(Entries(a, key))
    ensures BuildWith(a, key) == BuildWith(b, key)
  {
    EntriesPermutation(a, b, key);
    ComparablePermutation(Entries(a, key), Entries(b, key));
    ArrangeIndependentOfListing(a, b, key);
    EntriesCount(a, key);
    EntriesCount(b, key);
  }

  /**
    Every `*.md` file except `index.md` (in any letter case) is listed and
    nothing else is.
  */
  lemma ManifestListsEachFile(files: seq<SourceFile>, key: Key)
    requires KeepsName(key)
    requires NamesDistinct(files)
    ensures var s := Arrange(files, key);
      && (forall k :: 0 <= k < |files| ==> (Listed(files[k]) <==> exists i :: 0 <= i < |s| && s[i].name == files[k].name))
      && (forall i :: 0 <= i < |s| ==> EndsWith(s[i].name, ".md") && LowerStr(s[i].name) != "index.md")
  {
    var s := Arrange(files, key);
    forall i | 0 <= i < |s|
      ensures EndsWith(s[i].name, ".md") && LowerStr(s[i].name) != "index.md"
    {
      var k := ArrangedFromListed(files, key, i);
    }
    forall k | 0 <= k < |files|
      ensures Listed(files[k]) <==> exists i :: 0 <= i < |s| && s[i].name == files[k].name
    {
      if Listed(files[k]) {
        ListedHasEntry(files, key, k);
        assert key(files[k]) in multiset(s);
      }
      if exists i :: 0 <= i < |s| && s[i].name == files[k].name {
        var i :| 0 <= i < |s| && s[i].name == files[k].name;
        var m := ArrangedFromListed(files, key, i);
        assert files[m].name == files[k].name;
      }
    }
  }

  /** No file is listed twice. */
  lemma ManifestListsOnce(files: seq<SourceFile>, key: Key)
    requires KeepsName(key)
    requires NamesDistinct(files)
    requires Comparable(Entries(files, key))
    ensures EntryNamesDistinct(Arrange(files, key))
  {
    var es := Entries(files, key);
    var s := Arrange(files, key);
    ManifestOrder(files, key);
    EntriesNamesDistinct(files, key);
    forall i, j | 0 <= i < j < |s|
      ensures s[i].name != s[j].name
    {
      SortsBeforeIrreflexive(s[i]);
      assert s[i] != s[j];
      assert s[i] in multiset(es) && s[j] in multiset(es);
      var p :| 0 <= p < |es| && es[p] == s[i];
      var q :| 0 <= q < |es| && es[q] == s[j];
      assert p != q;
    }
  }

  lemma NoNewlineInLine(e: Entry)
    requires '\n' !in e.title && '\n' !in e.name
    ensures '\n' !in Line(e)
  {
  }

  /**
    When no title or name contains a newline, the manifest splits back into
    exactly one line `- <title>: <name>` per listed file, in manifest order,
    with no trailing empty line.
  */
  lemma ManifestLines(files: seq<SourceFile>, key: Key)
    requires BuildWith(files, key).Ok? && BuildWith(files, key).value.Some?
    requires forall k :: 0 <= k < |files| && Listed(files[k]) ==>
      '\n' !in key(files[k]).name && '\n' !in key(files[k]).title
    ensures var text := BuildWith(files, key).value.value;
      && Split(text, '\n') == Lines(Arrange(files, key))
      && |Split(text, '\n')| == |Filter(files, Listed)|
  {
    var s := Arrange(files, key);
    var ls := Lines(s);
    forall i | 0 <= i < |ls|
      ensures '\n' !in ls[i]
    {
      var k := ArrangedFromListed(files, key, i);
      NoNewlineInLine(s[i]);
    }
    SplitJoin(ls, '\n');
    EntriesCount(files, key);
  }

  // ----- Scanning the documentation root ------------------------------------

  /** A first-level entry of the documentation root, with the `*.md` files it holds. */
  datatype Folder = Folder(name: string, isDir: bool, files: seq<SourceFile>)

  /** `main` scans the directories whose name does not start with `.` and is not `site`. */
  predicate Scanned(f: Folder) {
    f.isDir && !StartsWith(f.name, ".") && f.name != "site"
  }

  /** Paths in one directory compare by name. */
  predicate NameBefore(a: Folder, b: Folder) {
    Less(a.name, b.name)
  }

  predicate FolderNamesDistinct(root: seq<Folder>) {
    forall i, j :: 0 <= i < j < |root| ==> root[i].name != root[j].name
  }

  /** The folders `main` visits, in visiting order: `sorted(iterdir())`, then the filter. */
  function ScanOrder(root: seq<Folder>): seq<Folder> {
    Filter(Sort(root, NameBefore), Scanned)
  }

  /** `main` visits exactly the scanned folders of the root, each once, in ascending name order. */
  lemma ScanOrderSpec(root: seq<Folder>)
    requires FolderNamesDistinct(root)
    ensures Sorted(ScanOrder(root), NameBefore)
    ensures forall i :: 0 <= i < |ScanOrder(root)| ==> ScanOrder(root)[i] in root && Scanned(ScanOrder(root)[i])
    ensures forall i :: 0 <= i < |root| && Scanned(root[i]) ==> root[i] in ScanOrder(root)
  {
    assert Distinct(root);
    forall x | x in root
      ensures !NameBefore(x, x)
    {
      LessIrreflexive(x.name);
    }
    forall x, y, z | x in root && y in root && z in root && NameBefore(x, y) && NameBefore(y, z)
      ensures NameBefore(x, z)
    {
      LessTransitive(x.name, y.name, z.name);
    }
    forall x, y | x in root && y in root && x != y
      ensures NameBefore(x, y) || NameBefore(y, x)
    {
      LessConnected(x.name, y.name);
    }
    SortSorted(root, NameBefore);
    var sorted := Sort(root, NameBefore);
    FilterSorted(sorted, Scanned, NameBefore);
    forall i | 0 <= i < |root| && Scanned(root[i])
      ensures root[i] in ScanOrder(root)
    {
      assert root[i] in multiset(sorted);
    }
    forall i | 0 <= i < |ScanOrder(root)|
      ensures ScanOrder(root)[i] in root
    {
      assert ScanOrder(root)[i] in multiset(sorted);
    }
  }

  /** One `.pages` file written by `mkdocs_gen_files.open`. */
  datatype Output = Output(path: string, text: string)

  function PagesPath(f: Folder): string {
    f.name + "/.pages"
  }

  /** What one call of `generate_pages_file` produces for a folder. */
  type FolderManifest = Folder -> Result<Option<string>, ManifestError>

  function ManifestOf(parse: string -> Parsed): FolderManifest {
    (f: Folder) => BuildManifest(f.files, parse)
  }

  /** `generate_pages_file` for each folder in turn; the first `TypeError` ends the run. */
  function GenerateFor(folders: seq<Folder>, build: FolderManifest): (r: Result<seq<Output>, ManifestError>)
    ensures r.Ok? <==> forall i :: 0 <= i < |folders| ==> build(folders[i]).Ok?
    ensures r.Ok? ==> |r.value| <= |folders|
    ensures r.Ok? ==> forall i :: 0 <= i < |folders| && build(folders[i]).value.Some? ==>
      Output(PagesPath(folders[i]), build(folders[i]).value.value) in r.value
    ensures r.Ok? ==> forall k :: 0 <= k < |r.value| ==> exists i :: 0 <= i < |folders| && Written(folders[i], build) == Some(r.value[k])
    decreases |folders|
  {
    if folders == [] then Ok([])
    else
      match build(folders[0])
      case Err(e) => Err(e)
      case Ok(m) =>
        match GenerateFor(folders[1..], build)
        case Err(e) => Err(e)
        case Ok(rest) =>
          var here := if m.Some? then [Output(PagesPath(folders[0]), m.value)] else [];
          assert forall i :: 1 <= i < |folders| ==> folders[1..][i - 1] == folders[i];
          WrittenCons(folders, build, m, rest);
          Ok(here + rest)
  }

  /** The outputs of a run step are the first folder's file, if any, then the rest's. */
  lemma WrittenCons(folders: seq<Folder>, build: FolderManifest, m: Option<string>, rest: seq<Output>)
    requires folders != [] && build(folders[0]) == Ok(m)
    requires forall k :: 0 <= k < |rest| ==> exists i :: 0 <= i < |folders[1..]| && Written(folders[1..][i], build) == Some(rest[k])
    ensures var outs := (if m.Some? then [Output(PagesPath(folders[0]), m.value)] else []) + rest;
      forall k :: 0 <= k < |outs| ==> exists i :: 0 <= i < |folders| && Written(folders[i], build) == Some(outs[k])
  {
    var here := if m.Some? then [Output(PagesPath(folders[0]), m.value)] else [];
    var outs := here + rest;
    forall k | 0 <= k < |outs|
      ensures exists i :: 0 <= i < |folders| && Written(folders[i], build) == Some(outs[k])
    {
      if k < |here| {
        assert Written(folders[0], build) == Some(outs[k]);
      } else {
        assert outs[k] == rest[k - |here|];
        var i :| 0 <= i < |folders[1..]| && Written(folders[1..][i], build) == Some(rest[k - |here|]);
        assert folders[1..][i] == folders[i + 1];
      }
    }
  }

  /** The file a folder gets: its manifest at its `.pages` path, or nothing when it has none. */
  function Written(f: Folder, build: FolderManifest): (o: Option<Output>)
    ensures o.Some? <==> build(f).Ok? && build(f).value.Some?
  {
    match build(f)
    case Ok(Some(text)) => Some(Output(PagesPath(f), text))
    case _ => None
  }

  /**
    A successful run writes, in folder order, exactly the manifests the
    folders have: a folder whose build gives no manifest gets no file.
  */
  lemma {:induction false} GenerateForWrites(folders: seq<Folder>, build: FolderManifest)
    requires GenerateFor(folders, build).Ok?
    ensures GenerateFor(folders, build).value == FilterMap(folders, f => Written(f, build))
    decreases |folders|
  {
    if folders != [] {
      GenerateForWrites(folders[1..], build);
    }
  }

  /** Distinct folders have distinct `.pages` paths. */
  lemma PagesPathInjective(a: Folder, b: Folder)
    requires PagesPath(a) == PagesPath(b)
    ensures a.name == b.name
  {
    assert a.name == PagesPath(a)[..|PagesPath(a)| - |"/.pages"|];
    assert b.name == PagesPath(b)[..|PagesPath(b)| - |"/.pages"|];
  }

  /**
    `main`: `None` stands for a missing documentation root, for which nothing
    is generated.
  */
  function GenerateWith(root: Option<seq<Folder>>, build: FolderManifest): Result<seq<Output>, ManifestError> {
    match root
    case None => Ok([])
    case Some(entries) => GenerateFor(ScanOrder(entries), build)
  }

  function Generate(root: Option<seq<Folder>>, parse: string -> Parsed): Result<seq<Output>, ManifestError> {
    GenerateWith(root, ManifestOf(parse))
  }

  /**
    A run writes the manifest of every scanned folder that has one, writes
    each scanned folder's own manifest and nothing else, and writes no file
    for a folder whose build gives no manifest.
  */
  lemma GenerateCoversScannedFolders(root: seq<Folder>, build: FolderManifest)
    requires FolderNamesDistinct(root)
    requires GenerateWith(Some(root), build).Ok?
    ensures var outs := GenerateWith(Some(root), build).value;
      && (forall i :: 0 <= i < |root| && Scanned(root[i]) ==> build(root[i]).Ok?)
      && (forall i :: 0 <= i < |root| && Scanned(root[i]) && build(root[i]).value.Some? ==>
            Output(PagesPath(root[i]), build(root[i]).value.value) in outs)
      && (forall k :: 0 <= k < |outs| ==> exists i :: 0 <= i < |root| && Scanned(root[i]) && Written(root[i], build) == Some(outs[k]))
      && (forall i, k :: 0 <= i < |root| && build(root[i]) == Ok(None) && 0 <= k < |outs| ==> outs[k].path != PagesPath(root[i]))
  {
    ScannedFoldersWritten(root, build);
    OutputsFromScannedFolders(root, build);
    NoManifestNoFile(root, build);
  }

  lemma ScannedFoldersWritten(root: seq<Folder>, build: FolderManifest)
    requires FolderNamesDistinct(root)
    requires GenerateWith(Some(root), build).Ok?
    ensures var outs := GenerateWith(Some(root), build).value;
      && (forall i :: 0 <= i < |root| && Scanned(root[i]) ==> build(root[i]).Ok?)
      && (forall i :: 0 <= i < |root| && Scanned(root[i]) && build(root[i]).value.Some? ==>
            Output(PagesPath(root[i]), build(root[i]).value.value) in outs)
  {
    ScanOrderSpec(root);
    var order := ScanOrder(root);
    var outs := GenerateFor(order, build).value;
    forall i | 0 <= i < |root| && Scanned(root[i])
      ensures build(root[i]).Ok?
      ensures build(root[i]).value.Some? ==> Output(PagesPath(root[i]), build(root[i]).value.value) in outs
    {
      assert root[i] in order;
      var j :| 0 <= j < |order| && order[j] == root[i];
    }
  }

  lemma OutputsFromScannedFolders(root: seq<Folder>, build: FolderManifest)
    requires FolderNamesDistinct(root)
    requires GenerateWith(Some(root), build).Ok?
    ensures var outs := GenerateWith(Some(root), build).value;
      forall k :: 0 <= k < |outs| ==> exists i :: 0 <= i < |root| && Scanned(root[i]) && Written(root[i], build) == Some(outs[k])
  {
    ScanOrderSpec(root);
    var order := ScanOrder(root);
    var outs := GenerateFor(order, build).value;
    forall k | 0 <= k < |outs|
      ensures exists i :: 0 <= i < |root| && Scanned(root[i]) && Written(root[i], build) == Some(outs[k])
    {
      var j :| 0 <= j < |order| && Written(order[j], build) == Some(outs[k]);
      var i :| 0 <= i < |root| && root[i] == order[j];
    }
  }

  lemma NoManifestNoFile(root: seq<Folder>, build: FolderManifest)
    requires FolderNamesDistinct(root)
    requires GenerateWith(Some(root), build).Ok?
    ensures var outs := GenerateWith(Some(root), build).value;
      forall i, k :: 0 <= i < |root| && build(root[i]) == Ok(None) && 0 <= k < |outs| ==> outs[k].path != PagesPath(root[i])
  {
    var outs := GenerateWith(Some(root), build).value;
    OutputsFromScannedFolders(root, build);
    forall i, k | 0 <= i < |root| && build(root[i]) == Ok(None) && 0 <= k < |outs|
      ensures outs[k].path != PagesPath(root[i])
    {
      var j :| 0 <= j < |root| && Scanned(root[j]) && Written(root[j], build) == Some(outs[k]);
      if outs[k].path == PagesPath(root[i]) {
        PagesPathInjective(root[i], root[j]);
      }
    }
  }
}

=== FILE: nav.dfy ===
/**
  The navigation tree MkDocs hands to the macros, and the lookups the card
  renderer and the weight validation share: a page's link, a section's
  representative link, the index page of a section and the section whose
  index is a given page.

  MkDocs distinguishes pages, sections and links by `is_page` / `is_section`
  flags; here they are the three variants of `Node`.
*/
module Nav {
  import opened Results
  import opened Values

  /**
    A page of the site. `absUrl` and `url` are MkDocs's `abs_url` and `url`;
    `file` identifies the page's source file; `meta` is its front matter,
    already loaded.
  */
  datatype Page = Page(
    title: string,
    absUrl: Option<string>,
    url: Option<string>,
    isIndex: bool,
    file: string,
    meta: Metadata)

  /** An item of the navigation: a page, a section with ordered children, or an external link. */
  datatype Node =
    | PageItem(page: Page)
    | SectionItem(title: string, children: seq<Node>)
    | LinkItem(title: string)

  /** What a card needs to link to an item: its title, URL and description. */
  datatype Info = Info(title: string, url: string, desc: Value)

  /** The URL a page is linked by: `abs_url`, unless that is missing or empty. */
  function LinkUrl(p: Page): (r: Option<string>)
    ensures p.absUrl.Some? && p.absUrl.value != "" ==> r == p.absUrl
    ensures p.absUrl.None? || p.absUrl == Some("") ==> r == p.url
    ensures r.None? <==> (p.absUrl.None? || p.absUrl == Some("")) && p.url.None?
  {
    if p.absUrl.Some? && p.absUrl.value != "" then p.absUrl else p.url
  }

  /** The description a card shows: the page's `description` when it is truthy, else the empty text. */
  function Description(meta: Metadata): (d: Value)
    ensures Truthy(d) || d == Text("")
    ensures "description" in meta && Truthy(meta["description"]) ==> d == meta["description"]
    ensures "description" !in meta || !Truthy(meta["description"]) ==> d == Text("")
  {
    if "description" in meta && Truthy(meta["description"]) then meta["description"] else Text("")
  }

  /** `_page_info`: nothing when the page has no URL. */
  function PageInfo(p: Page): (r: Option<Info>)
    ensures r.None? <==> LinkUrl(p).None?
    ensures r.Some? ==> r.value.title == p.title && Some(r.value.url) == LinkUrl(p)
    ensures r.Some? ==> r.value.desc == Description(p.meta)
  {
    match LinkUrl(p)
    case None => None
    case Some(u) => Some(Info(p.title, u, Description(p.meta)))
  }

  predicate IsPage(n: Node) { n.PageItem? }

  predicate IsIndexPage(n: Node) { n.PageItem? && n.page.isIndex }

  /** Position of the first child at or after `from` that satisfies `want`. */
  function FirstFrom(children: seq<Node>, want: Node -> bool, from: nat): (r: Option<nat>)
    requires from <= |children|
    ensures r.Some? ==> from <= r.value < |children| && want(children[r.value])
    ensures r.Some? ==> forall j :: from <= j < r.value ==> !want(children[j])
    ensures r.None? ==> forall j :: from <= j < |children| ==> !want(children[j])
    decreases |children| - from
  {
    if from == |children| then None
    else if want(children[from]) then Some(from)
    else FirstFrom(children, want, from + 1)
  }

  /** Position of the first index page among a section's children (`_index_page`). */
  function IndexPosition(children: seq<Node>): (r: Option<nat>)
    ensures r.Some? ==> r.value < |children| && IsIndexPage(children[r.value])
    ensures r.Some? ==> forall j :: 0 <= j < r.value ==> !IsIndexPage(children[j])
    ensures r.None? <==> forall j :: 0 <= j < |children| ==> !IsIndexPage(children[j])
  {
    FirstFrom(children, IsIndexPage, 0)
  }

  /** Position of the first page among a section's children. */
  function FirstPagePosition(children: seq<Node>): (r: Option<nat>)
    ensures r.Some? ==> r.value < |children| && IsPage(children[r.value])
    ensures r.Some? ==> forall j :: 0 <= j < r.value ==> !IsPage(children[j])
    ensures r.None? <==> forall j :: 0 <= j < |children| ==> !IsPage(children[j])
  {
    FirstFrom(children, IsPage, 0)
  }

  /** `_index_page`: the index page of a section; nothing for pages and links. */
  function IndexPage(n: Node): (r: Option<Page>)
    ensures r.Some? <==> n.SectionItem? && IndexPosition(n.children).Some?
    ensures r.Some? ==> r.value.isIndex && n.children[IndexPosition(n.children).value] == PageItem(r.value)
  {
    match n
    case SectionItem(_, children) =>
      (match IndexPosition(children)
       case None => None
       case Some(i) => Some(children[i].page))
    case _ => None
  }

  /**
    `_link_for_section`: the section's representative page is its first index
    page, or failing that its first page; the link takes the section's title
    unless that is empty.
  */
  function LinkForSection(title: string, children: seq<Node>): (r: Option<Info>)
  {
    var target :=
      if IndexPosition(children).Some? then IndexPosition(children)
      else FirstPagePosition(children);
    match target
    case None => None
    case Some(i) =>
      match PageInfo(children[i].page)
      case None => None
      case Some(info) => Some(info.(title := if title != "" then title else info.title))
  }

  /**
    `_item_info`: a page links to itself; a section links to its first index
    page or, without one, to its first page, under its own title when it has
    one; a link item and a section without pages link nowhere.
  */
  function ItemInfo(n: Node): (r: Option<Info>)
    ensures n.LinkItem? ==> r.None?
    ensures n.PageItem? ==> (r.Some? <==> LinkUrl(n.page).Some?)
    ensures n.PageItem? && r.Some? ==> r.value == Info(n.page.title, LinkUrl(n.page).value, Description(n.page.meta))
    ensures n.SectionItem? && FirstPagePosition(n.children).None? ==> r.None?
    ensures n.SectionItem? && FirstPagePosition(n.children).Some? ==>
              var k := if IndexPosition(n.children).Some? then IndexPosition(n.children).value
                       else FirstPagePosition(n.children).value;
              var p := n.children[k].page;
              && (r.Some? <==> LinkUrl(p).Some?)
              && (r.Some? ==> r.value == Info(if n.title != "" then n.title else p.title, LinkUrl(p).value, Description(p.meta)))
  {
    match n
    case PageItem(p) => PageInfo(p)
    case SectionItem(title, children) => LinkForSection(title, children)
    case LinkItem(_) => None
  }

  /**
    The representative link of a section, stated by cases: when the section has
    an index page, the first one decides (a first index page without a URL
    gives no link even if another page has one); otherwise the first page
    decides; a section without pages has no link.
  */
  lemma LinkForSectionChoice(title: string, children: seq<Node>, i: nat)
    requires i < |children| && children[i].PageItem?
    requires forall j :: 0 <= j < i ==> !IsIndexPage(children[j])
    requires children[i].page.isIndex
             || forall j :: 0 <= j < |children| ==> !IsIndexPage(children[j]) && (j < i ==> !IsPage(children[j]))
    ensures var r := LinkForSection(title, children);
            var p := children[i].page;
            && (r.None? <==> LinkUrl(p).None?)
            && (r.Some? ==> && Some(r.value.url) == LinkUrl(p)
                            && r.value.desc == Description(p.meta)
                            && r.value.title == (if title != "" then title else p.title))
  {
    if !children[i].page.isIndex {
      assert IndexPosition(children).None?;
    }
  }

  /** A section without any page child has no representative link. */
  lemma LinkForSectionWithoutPages(title: string, children: seq<Node>)
    requires forall j :: 0 <= j < |children| ==> !IsPage(children[j])
    ensures LinkForSection(title, children).None?
  {
    assert IndexPosition(children).None?;
  }

  /**
    A section's link is the link of one of its page children, renamed to the
    section's title when that is not empty; a section gives no link when no
    page child does.
  */
  lemma SectionInfoFromChild(title: string, children: seq<Node>)
    ensures var r := ItemInfo(SectionItem(title, children));
            r.Some? ==> exists k :: 0 <= k < |children| && children[k].PageItem? && ItemInfo(children[k]).Some?
                                    && r.value == ItemInfo(children[k]).value.(title := if title != "" then title else ItemInfo(children[k]).value.title)
    ensures (forall k :: 0 <= k < |children| && children[k].PageItem? ==> ItemInfo(children[k]).None?)
            ==> ItemInfo(SectionItem(title, children)).None?
  {
    var n := SectionItem(title, children);
    if FirstPagePosition(children).Some? {
      var k := if IndexPosition(children).Some? then IndexPosition(children).value
               else FirstPagePosition(children).value;
      assert children[k].PageItem?;
      assert ItemInfo(children[k]) == PageInfo(children[k].page);
    }
  }

  /** Does the index page of section `n` come from `file`? */
  predicate IndexIs(n: Node, file: string) {
    IndexPage(n).Some? && IndexPage(n).value.file == file
  }

  /**
    `_section_for_page`'s walk: the first section, visiting each section before
    its children and its children before its later siblings, whose index page
    comes from `file`.
  */
  function FindSection(items: seq<Node>, file: string): (r: Option<Node>)
    ensures r.Some? ==> r.value.SectionItem? && IndexIs(r.value, file)
    decreases items
  {
    if items == [] then None
    else
      var head := items[0];
      var here :=
        match head
        case SectionItem(_, children) =>
          if IndexIs(head, file) then Some(head) else FindSection(children, file)
        case _ => None;
      if here.Some? then here else FindSection(items[1..], file)
  }

  /** `_section_for_page`: no navigation means no section. */
  function SectionForPage(nav: Option<seq<Node>>, page: Page): (r: Option<Node>)
    ensures nav.None? ==> r.None?
    ensures r.Some? ==> r.value.SectionItem? && IndexIs(r.value, page.file)
  {
    match nav
    case None => None
    case Some(items) => FindSection(items, page.file)
  }

  /** Every section of the tree, each before its children and its children before its later siblings. */
  function Sections(items: seq<Node>): (r: seq<Node>)
    ensures forall k :: 0 <= k < |r| ==> r[k].SectionItem?
    decreases items
  {
    if items == [] then []
    else
      var here :=
        match items[0]
        case SectionItem(_, children) => [items[0]] + Sections(children)
        case _ => [];
      here + Sections(items[1..])
  }

  /** The first section of a list whose index page comes from `file`. */
  function FirstWithIndex(sections: seq<Node>, file: string): (r: Option<nat>)
    ensures r.Some? ==> r.value < |sections| && IndexIs(sections[r.value], file)
    ensures r.Some? ==> forall j :: 0 <= j < r.value ==> !IndexIs(sections[j], file)
    ensures r.None? <==> forall j :: 0 <= j < |sections| ==> !IndexIs(sections[j], file)
  {
    if sections == [] then None
    else if IndexIs(sections[0], file) then Some(0)
    else match FirstWithIndex(sections[1..], file)
      case None => None
      case Some(i) => Some(i + 1)
  }

  /** The first match of a concatenation is the first match of its first part, if any. */
  lemma {:induction false} FirstWithIndexAppend(a: seq<Node>, b: seq<Node>, file: string)
    ensures FirstWithIndex(a + b, file) ==
            match FirstWithIndex(a, file)
            case Some(i) => Some(i)
            case None =>
              match FirstWithIndex(b, file)
              case None => None
              case Some(j) => Some(|a| + j)
    decreases |a|
  {
    if a == [] {
      assert a + b == b;
    } else {
      assert (a + b)[0] == a[0];
      if !IndexIs(a[0], file) {
        assert (a + b)[1..] == a[1..] + b;
        FirstWithIndexAppend(a[1..], b, file);
      }
    }
  }

  /**
    The recursive walk finds exactly the first section, in pre-order, whose
    index page comes from `file`; it finds none when no section qualifies.
  */
  lemma {:induction false} FindSectionIsFirstInPreOrder(items: seq<Node>, file: string)
    ensures var k := FirstWithIndex(Sections(items), file);
            && (FindSection(items, file).None? <==> k.None?)
            && (k.Some? ==> FindSection(items, file) == Some(Sections(items)[k.value]))
    decreases items, 1
  {
    if items != [] {
      var here := SectionsHere(items[0]);
      assert Sections(items) == here + Sections(items[1..]);
      FirstWithIndexAppend(here, Sections(items[1..]), file);
      FindSectionIsFirstInPreOrder(items[1..], file);
      if items[0].SectionItem? {
        FindHere(items[0].title, items[0].children, file);
      }
    }
  }

  /** The sections of one item: itself and those below it, for a section; none otherwise. */
  function SectionsHere(n: Node): seq<Node> {
    match n
    case SectionItem(_, children) => [n] + Sections(children)
    case _ => []
  }

  /** The walk's verdict on one section is the first match among that section's sections. */
  lemma FindHere(title: string, children: seq<Node>, file: string)
    ensures var n := SectionItem(title, children);
            var k := FirstWithIndex(SectionsHere(n), file);
            var found := if IndexIs(n, file) then Some(n) else FindSection(children, file);
            && (found.None? <==> k.None?)
            && (k.Some? ==> found == Some(SectionsHere(n)[k.value]))
    decreases children, 2
  {
    FindSectionIsFirstInPreOrder(children, file);
    FirstWithIndexAppend([SectionItem(title, children)], Sections(children), file);
  }

  /** `_count_children`: a section's direct children, its index page included. */
  function CountChildren(n: Node): nat
    requires n.SectionItem?
  {
    |n.children|
  }
}

=== FILE: results.dfy ===
/** Failure-compatible wrappers shared by the whole model. */
module Results {

  /** An optional value; `None` stands for Python's `None` return. */
  datatype Option<+T> = None | Some(value: T) {
    predicate IsFailure() { None? }

    function PropagateFailure<U>(): Option<U>
      requires None?
    {
      None
    }

    function Extract(): T
      requires Some?
    {
      value
    }
  }

  /** A value or the exception the source would raise instead. */
  datatype Result<+T, +E> = Ok(value: T) | Err(error: E) {
    predicate IsFailure() { Err? }

    function PropagateFailure<U>(): Result<U, E>
      requires Err?
    {
      Err(error)
    }

    function Extract(): T
      requires Ok?
    {
      value
    }
  }
}

=== FILE: sequences.dfy ===
/**
  Filtering and sorting of sequences. Python's `sorted` is a stable merge sort;
  here the sort is an insertion sort, and `SortedUnique` shows that over a strict
  total order every algorithm that returns a sorted permutation returns the same
  sequence, so the choice of algorithm is invisible.
*/
module Sequences {
  import opened Results

  /** The list comprehension `[x for x in s if keep(x)]`. */
  function Filter<T>(s: seq<T>, keep: T -> bool): (r: seq<T>)
    ensures |r| <= |s|
    ensures forall i :: 0 <= i < |r| ==> r[i] in s && keep(r[i])
    ensures forall i :: 0 <= i < |s| && keep(s[i]) ==> s[i] in r
    decreases |s|
  {
    if s == [] then []
    else if keep(s[0]) then [s[0]] + Filter(s[1..], keep)
    else Filter(s[1..], keep)
  }

  lemma {:induction false} FilterMultiset<T>(s: seq<T>, keep: T -> bool)
    ensures multiset(Filter(s, keep)) <= multiset(s)
    ensures forall x :: x in multiset(Filter(s, keep)) ==> multiset(Filter(s, keep))[x] == multiset(s)[x]
    decreases |s|
  {
    if s != [] {
      FilterMultiset(s[1..], keep);
      assert s == [s[0]] + s[1..];
    }
  }

  /** Two tests that agree on every element filter alike. */
  lemma {:induction false} FilterCongruent<T>(s: seq<T>, p: T -> bool, q: T -> bool)
    requires forall i :: 0 <= i < |s| ==> p(s[i]) == q(s[i])
    ensures Filter(s, p) == Filter(s, q)
    decreases |s|
  {
    if s != [] {
      FilterCongruent(s[1..], p, q);
    }
  }

  /** Filtering keeps the relative order of what it keeps. */
  lemma {:induction false} FilterSorted<T>(s: seq<T>, keep: T -> bool, less: (T, T) -> bool)
    requires Sorted(s, less)
    ensures Sorted(Filter(s, keep), less)
    decreases |s|
  {
    if s != [] {
      assert Sorted(s[1..], less);
      FilterSorted(s[1..], keep, less);
      if keep(s[0]) {
        var t := Filter(s[1..], keep);
        var r := [s[0]] + t;
        forall i, j | 0 <= i < j < |r|
          ensures less(r[i], r[j])
        {
          assert r[j] == t[j - 1];
          if i == 0 {
            assert t[j - 1] in s[1..];
            var k :| 0 <= k < |s[1..]| && s[1..][k] == t[j - 1];
            assert s[k + 1] == r[j];
          } else {
            assert r[i] == t[i - 1];
          }
        }
      }
    }
  }

  /** The loop that keeps `f(x)` for each `x` of `s` where `f` gives something, in order. */
  function FilterMap<T, U>(s: seq<T>, f: T -> Option<U>): (r: seq<U>)
    ensures |r| <= |s|
    decreases |s|
  {
    if s == [] then []
    else (match f(s[0]) case None => [] case Some(u) => [u]) + FilterMap(s[1..], f)
  }

  lemma {:induction false} FilterMapAppend<T, U>(a: seq<T>, b: seq<T>, f: T -> Option<U>)
    ensures FilterMap(a + b, f) == FilterMap(a, f) + FilterMap(b, f)
    decreases |a|
  {
    if a == [] {
      assert a + b == b;
    } else {
      assert (a + b)[0] == a[0];
      assert (a + b)[1..] == a[1..] + b;
      FilterMapAppend(a[1..], b, f);
    }
  }

  /** Filter-mapping is filtering for where `f` gives something, then taking what it gives. */
  lemma {:induction false} FilterMapIsFilter<T, U>(s: seq<T>, f: T -> Option<U>, keep: T -> bool)
    requires forall i :: 0 <= i < |s| ==> keep(s[i]) == f(s[i]).Some?
    ensures var kept := Filter(s, keep);
            && |FilterMap(s, f)| == |kept|
            && forall i :: 0 <= i < |kept| ==> f(kept[i]).Some? && FilterMap(s, f)[i] == f(kept[i]).value
    decreases |s|
  {
    if s != [] {
      FilterMapIsFilter(s[1..], f, keep);
      var kept := Filter(s[1..], keep);
      if keep(s[0]) {
        assert Filter(s, keep) == [s[0]] + kept;
        assert FilterMap(s, f) == [f(s[0]).value] + FilterMap(s[1..], f);
      }
    }
  }

  /** Taking one occurrence of `x` out of two equal multisets leaves equal multisets. */
  lemma MultisetRemove<T>(a: seq<T>, left: seq<T>, right: seq<T>, x: T)
    requires a != [] && a[0] == x
    requires multiset(a) == multiset(left + [x] + right)
    ensures multiset(a[1..]) == multiset(left + right)
  {
    assert a == [x] + a[1..];
    assert multiset(a) == multiset{x} + multiset(a[1..]);
    assert multiset(left + [x] + right) == multiset(left) + multiset{x} + multiset(right);
    assert multiset(left + right) == multiset(left) + multiset(right);
    assert multiset(a[1..]) == multiset(a) - multiset{x};
  }

  /** No element occurs twice. */
  predicate Distinct<T(==)>(s: seq<T>) {
    forall i, j :: 0 <= i < |s| && 0 <= j < |s| && i != j ==> s[i] != s[j]
  }

  /** `less` is a strict total order on the elements of `s`. */
  ghost predicate StrictOrderOn<T>(s: seq<T>, less: (T, T) -> bool) {
    && (forall x | x in s :: !less(x, x))
    && (forall x, y, z | x in s && y in s && z in s :: less(x, y) && less(y, z) ==> less(x, z))
    && (forall x, y | x in s && y in s :: x == y || less(x, y) || less(y, x))
  }

  /** Every element comes strictly before every later one. */
  ghost predicate Sorted<T>(s: seq<T>, less: (T, T) -> bool) {
    forall i, j :: 0 <= i < j < |s| ==> less(s[i], s[j])
  }

  function Insert<T>(x: T, s: seq<T>, less: (T, T) -> bool): (r: seq<T>)
    ensures |r| == |s| + 1
    ensures multiset(r) == multiset(s) + multiset{x}
    decreases |s|
  {
    if s == [] then [x]
    else if less(s[0], x) then
      assert s == [s[0]] + s[1..];
      [s[0]] + Insert(x, s[1..], less)
    else [x] + s
  }

  /** The permutation of `s` that `less` orders. */
  function Sort<T>(s: seq<T>, less: (T, T) -> bool): (r: seq<T>)
    ensures |r| == |s|
    ensures multiset(r) == multiset(s)
    decreases |s|
  {
    if s == [] then []
    else
      assert s == [s[0]] + s[1..];
      Insert(s[0], Sort(s[1..], less), less)
  }

  /** A sorted sequence stays sorted under a head that comes before all of it. */
  lemma ConsSorted<T>(h: T, t: seq<T>, less: (T, T) -> bool)
    requires Sorted(t, less)
    requires forall y :: y in t ==> less(h, y)
    ensures Sorted([h] + t, less)
  {
    var r := [h] + t;
    forall i, j | 0 <= i < j < |r|
      ensures less(r[i], r[j])
    {
      assert r[j] == t[j - 1];
      if i == 0 {
        assert r[j] in t;
      } else {
        assert r[i] == t[i - 1];
      }
    }
  }

  /** What an insertion holds: the new element and the old ones. */
  lemma InsertHolds<T>(x: T, s: seq<T>, less: (T, T) -> bool, y: T)
    requires y in Insert(x, s, less)
    ensures y == x || y in s
  {
    assert y in multiset(Insert(x, s, less));
  }

  lemma {:induction false} InsertSorted<T>(x: T, s: seq<T>, less: (T, T) -> bool, u: seq<T>)
    requires StrictOrderOn(u, less)
    requires x in u && forall y :: y in s ==> y in u
    requires x !in s
    requires Sorted(s, less)
    ensures Sorted(Insert(x, s, less), less)
    decreases |s|
  {
    if s == [] {
    } else if less(s[0], x) {
      var tail := s[1..];
      assert Sorted(tail, less);
      InsertSorted(x, tail, less, u);
      var t := Insert(x, tail, less);
      forall y | y in t
        ensures less(s[0], y)
      {
        InsertHolds(x, tail, less, y);
        if y != x {
          var j :| 0 <= j < |tail| && tail[j] == y;
          assert s[j + 1] == y;
        }
      }
      ConsSorted(s[0], t, less);
    } else {
      assert s[0] in s;
      assert less(x, s[0]);
      forall y | y in s
        ensures less(x, y)
      {
        var j :| 0 <= j < |s| && s[j] == y;
        if j > 0 {
          assert less(s[0], s[j]);
        }
      }
      ConsSorted(x, s, less);
    }
  }

  lemma {:induction false} SortSorted<T>(s: seq<T>, less: (T, T) -> bool)
    requires StrictOrderOn(s, less)
    requires Distinct(s)
    ensures Sorted(Sort(s, less), less)
    decreases |s|
  {
    if s != [] {
      var tail := s[1..];
      assert forall y :: y in tail ==> y in s;
      assert StrictOrderOn(tail, less);
      assert Distinct(tail);
      SortSorted(tail, less);
      var t := Sort(tail, less);
      forall y | y in t
        ensures y in s
      {
        assert y in multiset(t);
      }
      assert s[0] !in tail;
      assert s[0] !in t by {
        assert multiset(t) == multiset(tail);
        assert s[0] !in multiset(tail);
      }
      InsertSorted(s[0], t, less, s);
    }
  }

  /** The head of a sorted sequence comes before every other element of it. */
  lemma HeadFirst<T>(a: seq<T>, less: (T, T) -> bool)
    requires Sorted(a, less) && a != []
    ensures forall y :: y in a && y != a[0] ==> less(a[0], y)
  {
    forall y | y in a && y != a[0]
      ensures less(a[0], y)
    {
      var k :| 0 <= k < |a| && a[k] == y;
    }
  }

  lemma Asymmetric<T>(u: seq<T>, less: (T, T) -> bool, x: T, y: T)
    requires StrictOrderOn(u, less)
    requires x in u && y in u
    ensures !(less(x, y) && less(y, x))
  {
  }

  lemma StrictOrderOnSubset<T>(u: seq<T>, v: seq<T>, less: (T, T) -> bool)
    requires StrictOrderOn(u, less)
    requires forall y :: y in v ==> y in u
    ensures StrictOrderOn(v, less)
  {
  }

  lemma SameHeadSameTail<T>(a: seq<T>, b: seq<T>)
    requires a != [] && b != [] && a[0] == b[0]
    requires multiset(a) == multiset(b)
    ensures multiset(a[1..]) == multiset(b[1..])
  {
    assert a == [a[0]] + a[1..] && b == [b[0]] + b[1..];
    assert multiset(a) == multiset{a[0]} + multiset(a[1..]);
    assert multiset(b) == multiset{b[0]} + multiset(b[1..]);
    assert multiset(a[1..]) == multiset(a) - multiset{a[0]};
    assert multiset(b[1..]) == multiset(b) - multiset{b[0]};
  }

  /** Two sorted permutations of each other over a strict order are equal. */
  lemma {:induction false} SortedUnique<T>(a: seq<T>, b: seq<T>, less: (T, T) -> bool)
    requires StrictOrderOn(a, less)
    requires multiset(a) == multiset(b)
    requires Sorted(a, less) && Sorted(b, less)
    ensures a == b
    decreases |a|
  {
    assert |a| == |multiset(a)| == |b|;
    if a != [] {
      assert b[0] in multiset(a) && a[0] in multiset(b);
      HeadFirst(a, less);
      HeadFirst(b, less);
      Asymmetric(a, less, a[0], b[0]);
      assert a[0] == b[0];
      SameHeadSameTail(a, b);
      StrictOrderOnSubset(a, a[1..], less);
      SortedUnique(a[1..], b[1..], less);
      assert a == [a[0]] + a[1..] && b == [b[0]] + b[1..];
    }
  }
}

=== FILE: strings.dfy ===
/** ASCII character classes and the string operations the scripts rely on. */
module Strings {

  predicate IsDigit(c: char) { '0' <= c <= '9' }
  predicate IsUpper(c: char) { 'A' <= c <= 'Z' }
  predicate IsLower(c: char) { 'a' <= c <= 'z' }

  /** A cased character in the sense of Python's `str.title`, restricted to ASCII. */
  predicate IsLetter(c: char) { IsUpper(c) || IsLower(c) }

  function ToLower(c: char): char {
    if IsUpper(c) then (c as int + 32) as char else c
  }

  function ToUpper(c: char): char {
    if IsLower(c) then (c as int - 32) as char else c
  }

  /** `str.lower()` on ASCII text. */
  function LowerStr(s: string): (r: string)
    ensures |r| == |s|
  {
    seq(|s|, i requires 0 <= i < |s| => ToLower(s[i]))
  }

  predicate AllDigits(s: string) {
    forall i :: 0 <= i < |s| ==> IsDigit(s[i])
  }

  /** Python's `str.isdigit()` on ASCII text: non-empty and only digits. */
  predicate IsDigits(s: string) {
    |s| > 0 && AllDigits(s)
  }

  function DigitValue(c: char): nat
    requires IsDigit(c)
  {
    c as int - '0' as int
  }

  function DigitChar(d: nat): (c: char)
    requires d < 10
    ensures IsDigit(c) && DigitValue(c) == d
  {
    ('0' as int + d) as char
  }

  /** The number a string of decimal digits denotes (`int(s)`); the empty string denotes 0. */
  function DigitsValue(s: string): nat
    requires AllDigits(s)
    decreases |s|
  {
    if s == [] then 0 else DigitsValue(s[..|s| - 1]) * 10 + DigitValue(s[|s| - 1])
  }

  /** Decimal rendering of a natural number, as `str(n)` gives it. */
  function NatToString(n: nat): (r: string)
    ensures IsDigits(r)
    ensures DigitsValue(r) == n
    ensures r[0] == '0' ==> r == "0"
    decreases n
  {
    if n < 10 then [DigitChar(n)]
    else
      var prefix := NatToString(n / 10);
      var r := prefix + [DigitChar(n % 10)];
      assert r[..|r| - 1] == prefix;
      r
  }

  /** Decimal rendering of an integer, as `str(i)` gives it. */
  function IntToString(i: int): string {
    if i < 0 then "-" + NatToString(-i) else NatToString(i)
  }

  predicate StartsWith(s: string, prefix: string) {
    |prefix| <= |s| && s[..|prefix|] == prefix
  }

  predicate EndsWith(s: string, suffix: string) {
    |suffix| <= |s| && s[|s| - |suffix|..] == suffix
  }

  /** `s.replace(a, b)` for single characters. */
  function ReplaceChar(s: string, a: char, b: char): (r: string)
    ensures |r| == |s|
    ensures a != b ==> a !in r
  {
    seq(|s|, i requires 0 <= i < |s| => if s[i] == a then b else s[i])
  }

  /** `s.rstrip(c)`: drop every trailing occurrence of `c`. */
  function StripTrailing(s: string, c: char): (r: string)
    ensures |r| <= |s| && r == s[..|r|]
    ensures r == [] || r[|r| - 1] != c
    ensures forall i :: |r| <= i < |s| ==> s[i] == c
  {
    if |s| > 0 && s[|s| - 1] == c then StripTrailing(s[..|s| - 1], c) else s
  }

  /** `s.lstrip(c)`: drop every leading occurrence of `c`. */
  function StripLeading(s: string, c: char): (r: string)
    ensures |r| <= |s| && r == s[|s| - |r|..]
    ensures r == [] || r[0] != c
    ensures forall i :: 0 <= i < |s| - |r| ==> s[i] == c
  {
    if |s| > 0 && s[0] == c then StripLeading(s[1..], c) else s
  }

  /** `s.replace(c, "", 1)`: drop the first occurrence of `c`, if any. */
  function RemoveFirst(s: string, c: char): string {
    if c in s then
      var i := FirstIndex(s, c);
      s[..i] + s[i + 1..]
    else s
  }

  /** Python's `<` on strings: lexicographic by code point. */
  predicate Less(a: string, b: string)
    decreases |a|
  {
    if |a| == 0 then |b| > 0
    else if |b| == 0 then false
    else a[0] < b[0] || (a[0] == b[0] && Less(a[1..], b[1..]))
  }

  lemma {:induction false} LessIrreflexive(a: string)
    ensures !Less(a, a)
    decreases |a|
  {
    if |a| > 0 {
      LessIrreflexive(a[1..]);
    }
  }

  lemma {:induction false} LessTransitive(a: string, b: string, c: string)
    requires Less(a, b) && Less(b, c)
    ensures Less(a, c)
    decreases |a|
  {
    if |a| > 0 && |b| > 0 && |c| > 0 && a[0] == b[0] && b[0] == c[0] {
      LessTransitive(a[1..], b[1..], c[1..]);
    }
  }

  lemma {:induction false} LessConnected(a: string, b: string)
    requires a != b
    ensures Less(a, b) || Less(b, a)
    decreases |a|
  {
    if |a| > 0 && |b| > 0 && a[0] == b[0] {
      assert a == [a[0]] + a[1..] && b == [b[0]] + b[1..];
      LessConnected(a[1..], b[1..]);
    }
  }

  lemma LessAsymmetric(a: string, b: string)
    requires Less(a, b)
    ensures !Less(b, a)
  {
    if Less(b, a) {
      LessTransitive(a, b, a);
      LessIrreflexive(a);
    }
  }

  /** `sep.join(lines)` for a one-character separator. */
  function Join(lines: seq<string>, sep: char): string
    decreases |lines|
  {
    if |lines| == 0 then ""
    else if |lines| == 1 then lines[0]
    else lines[0] + [sep] + Join(lines[1..], sep)
  }

  /** Position of the first occurrence of `c` in `s`. */
  function FirstIndex(s: string, c: char): (i: nat)
    requires c in s
    ensures i < |s| && s[i] == c && c !in s[..i]
  {
    if s[0] == c then 0
    else
      var k := FirstIndex(s[1..], c);
      assert s[..k + 1] == [s[0]] + s[1..][..k];
      k + 1
  }

  lemma {:induction false} FirstIndexAt(s: string, c: char, k: nat)
    requires k < |s| && s[k] == c
    requires forall j :: 0 <= j < k ==> s[j] != c
    ensures FirstIndex(s, c) == k
    decreases k
  {
    if k > 0 {
      FirstIndexAt(s[1..], c, k - 1);
    }
  }

  /** `s.split(sep)` for a one-character separator. */
  function Split(s: string, sep: char): (r: seq<string>)
    ensures |r| > 0
    decreases |s|
  {
    if sep !in s then [s]
    else
      var i := FirstIndex(s, sep);
      [s[..i]] + Split(s[i + 1..], sep)
  }

  /** Splitting at a first separator gives the text before it, then the split of the rest. */
  lemma SplitAt(s: string, sep: char, i: nat)
    requires i < |s| && s[i] == sep
    requires forall j :: 0 <= j < i ==> s[j] != sep
    ensures Split(s, sep) == [s[..i]] + Split(s[i + 1..], sep)
  {
    FirstIndexAt(s, sep, i);
  }

  /** Joining lines that do not contain the separator and splitting again gives the lines back. */
  lemma {:induction false} SplitJoin(lines: seq<string>, sep: char)
    requires |lines| > 0
    requires forall i :: 0 <= i < |lines| ==> sep !in lines[i]
    ensures Split(Join(lines, sep), sep) == lines
    decreases |lines|
  {
    if |lines| == 1 {
      assert Join(lines, sep) == lines[0];
    } else {
      var rest := Join(lines[1..], sep);
      var s := lines[0] + [sep] + rest;
      assert Join(lines, sep) == s;
      var n := |lines[0]|;
      assert s[n] == sep;
      assert s[..n] == lines[0];
      assert s[n + 1..] == rest;
      assert forall j :: 0 <= j < n ==> s[j] == lines[0][j];
      SplitAt(s, sep, n);
      SplitJoin(lines[1..], sep);
      assert lines == [lines[0]] + lines[1..];
    }
  }
}

=== FILE: values.dfy ===
/**
  The values a YAML front-matter block can hold once parsed, with the three
  Python behaviours the scripts depend on: truthiness, `str()` and numeric
  comparison.
*/
module Values {
  import opened Results
  import opened Strings

  /**
    `Real` is a finite float, carrying both the exact number and the text
    `str()` shows for it; `Infinite` and `NotANumber` are the floats YAML writes
    `.inf`, `-.inf` and `.nan`; `Other` stands for lists, mappings and dates,
    with their `str()` text and whether they are empty.
  */
  datatype Value =
    | Text(s: string)
    | Int(i: int)
    | Real(r: real, shown: string)
    | Infinite(negative: bool)
    | NotANumber
    | Flag(b: bool)
    | Null
    | Other(shown: string, empty: bool)

  /** A page's front matter, keyed by name. */
  type Metadata = map<string, Value>

  /** Python truthiness (`if v`, `v or default`). */
  predicate Truthy(v: Value) {
    match v
    case Text(s) => s != ""
    case Int(i) => i != 0
    case Real(r, _) => r != 0.0
    case Infinite(_) => true
    case NotANumber => true
    case Flag(b) => b
    case Null => false
    case Other(_, empty) => !empty
  }

  /** `str(v)`, as an f-string or `%s` renders it. */
  function Display(v: Value): string {
    match v
    case Text(s) => s
    case Int(i) => IntToString(i)
    case Real(_, shown) => shown
    case Infinite(negative) => if negative then "-inf" else "inf"
    case NotANumber => "nan"
    case Flag(b) => if b then "True" else "False"
    case Null => "None"
    case Other(shown, _) => shown
  }

  /**
    The finite number an `int`, finite `float` or `bool` stands for (`bool` is a subclass of
    `int` in Python); Python compares and hashes these by this value, so `2`,
    `2.0` and `True + 1` are the same dictionary key.
  */
  function Numeric(v: Value): (r: Option<real>)
    ensures r.Some? <==> (v.Int? || v.Real? || v.Flag?)
  {
    match v
    case Int(i) => Some(i as real)
    case Real(r, _) => Some(r)
    case Flag(b) => Some(if b then 1.0 else 0.0)
    case _ => None
  }

  /** An `int`, `float` or `bool` as Python's comparisons see it. */
  datatype Number = NegInf | Finite(x: real) | PosInf | NaN

  function NumberOf(v: Value): (r: Option<Number>)
    ensures r.Some? <==> Numeric(v).Some? || v.Infinite? || v.NotANumber?
    ensures Numeric(v).Some? ==> r == Some(Finite(Numeric(v).value))
    ensures v.Infinite? ==> r == Some(if v.negative then NegInf else PosInf)
    ensures v.NotANumber? ==> r == Some(NaN)
  {
    match v
    case Int(i) => Some(Finite(i as real))
    case Real(r, _) => Some(Finite(r))
    case Flag(b) => Some(Finite(if b then 1.0 else 0.0))
    case Infinite(negative) => Some(if negative then NegInf else PosInf)
    case NotANumber => Some(NaN)
    case _ => None
  }

  /** Python's `a < b` on numbers: the infinities bound every finite value, and NaN is below and above nothing. */
  predicate Below(a: Number, b: Number) {
    match (a, b)
    case (NegInf, Finite(_)) => true
    case (NegInf, PosInf) => true
    case (Finite(x), Finite(y)) => x < y
    case (Finite(_), PosInf) => true
    case _ => false
  }

  /** Python's `a == b` on numbers: NaN equals nothing, not even itself. */
  predicate Same(a: Number, b: Number) {
    a == b && !a.NaN?
  }

  lemma BelowTransitive(a: Number, b: Number, c: Number)
    requires Below(a, b) && Below(b, c)
    ensures Below(a, c)
  {
  }

  /** Numbers other than NaN are totally ordered: one is below the other or they are the same. */
  lemma BelowTrichotomy(a: Number, b: Number)
    requires !a.NaN? && !b.NaN?
    ensures Below(a, b) || Same(a, b) || Below(b, a)
    ensures !(Below(a, b) && Below(b, a)) && !(Below(a, b) && Same(a, b))
  {
  }

  /** NaN is not comparable: nothing is below it, it is below nothing. */
  lemma NaNUnordered(a: Number)
    ensures !Below(a, NaN) && !Below(NaN, a) && !Same(a, NaN)
  {
  }
}

=== FILE: walk.dfy ===
/**
  The `on_nav` hook: a walk over the navigation that back-fills `weight` from
  `sidebar_position` on each sibling group and then reports the group's
  duplicate weights, before descending into each sub-section in order.

  The hook mutates the pages' metadata in place and logs its warnings. Here a
  walk returns the tree with the back-filled metadata and the warnings it
  would log, in logging order, or the error the back-fill raised.
*/
module Walk {
  import opened Results
  import opened Values
  import opened Nav
  import opened Weights
  import opened Conflicts

  /** How many nodes the tree holds; the walk's measure. */
  function Size(items: seq<Node>): nat
    decreases items
  {
    if items == [] then 0
    else 1 + (if items[0].SectionItem? then Size(items[0].children) else 0) + Size(items[1..])
  }

  /** Sibling lists that agree on which items are sections, and on the sizes below them, have the same size. */
  lemma {:induction false} SizeCongruent(a: seq<Node>, b: seq<Node>)
    requires |a| == |b|
    requires forall k :: 0 <= k < |a| ==> a[k].SectionItem? == b[k].SectionItem?
    requires forall k :: 0 <= k < |a| && a[k].SectionItem? ==> Size(a[k].children) == Size(b[k].children)
    ensures Size(a) == Size(b)
    decreases |a|
  {
    if a != [] {
      SizeCongruent(a[1..], b[1..]);
    }
  }

  /** `_apply_sidebar_weight` on one sibling: back-fills its weight page, in place. */
  function BackfillNode(n: Node): (r: Result<Node, WeightError>)
    ensures r.Err? <==> WeightPage(n).Some? && Backfill(WeightPage(n).value.meta).Err?
  {
    match n
    case PageItem(p) =>
      var m :- Backfill(p.meta);
      Ok(PageItem(p.(meta := m)))
    case SectionItem(title, children) =>
      (match IndexPosition(children)
       case None => Ok(n)
       case Some(i) =>
         var p := children[i].page;
         var m :- Backfill(p.meta);
         Ok(SectionItem(title, children[i := PageItem(p.(meta := m))])))
    case LinkItem(_) => Ok(n)
  }

  /** The back-fill loop of `_warn_conflicts`, sibling by sibling; the first failure stops it. */
  function BackfillAll(items: seq<Node>): (r: Result<seq<Node>, WeightError>)
    ensures r.Ok? <==> forall k :: 0 <= k < |items| ==> BackfillNode(items[k]).Ok?
    ensures r.Ok? ==> |r.value| == |items|
    ensures r.Ok? ==> forall k :: 0 <= k < |items| ==> r.value[k] == BackfillNode(items[k]).value
    decreases |items|
  {
    if items == [] then Ok([])
    else
      var head :- BackfillNode(items[0]);
      var rest :- BackfillAll(items[1..]);
      Ok([head] + rest)
  }

  /** Back-filling changes metadata only, so the tree keeps its size. */
  lemma BackfillNodeShape(n: Node)
    requires BackfillNode(n).Ok?
    ensures BackfillNode(n).value.SectionItem? == n.SectionItem?
    ensures n.SectionItem? ==> Size(BackfillNode(n).value.children) == Size(n.children)
  {
    if n.SectionItem? && IndexPosition(n.children).Some? {
      var i := IndexPosition(n.children).value;
      var cs := BackfillNode(n).value.children;
      assert cs[i].PageItem? && forall k :: 0 <= k < |cs| && k != i ==> cs[k] == n.children[k];
      SizeCongruent(cs, n.children);
    }
  }

  lemma BackfillAllSize(items: seq<Node>)
    requires BackfillAll(items).Ok?
    ensures Size(BackfillAll(items).value) == Size(items)
  {
    var filled := BackfillAll(items).value;
    forall k | 0 <= k < |items|
      ensures filled[k].SectionItem? == items[k].SectionItem?
      ensures items[k].SectionItem? ==> Size(filled[k].children) == Size(items[k].children)
    {
      BackfillNodeShape(items[k]);
    }
    SizeCongruent(filled, items);
  }

  /** The label sub-sections are reported under: `child.title or parent_label`. */
  function SubLabel(title: string, parentLabel: string): (r: string)
    ensures r == title || r == parentLabel
    ensures r == "" ==> title == "" && parentLabel == ""
    ensures title != "" ==> r == title
    ensures title == "" ==> r == parentLabel
  {
    if title != "" then title else parentLabel
  }

  /**
    `_walk_sections`: back-fill and check one sibling group, then walk each
    sub-section in order.
  */
  function WalkSections(items: seq<Node>, parentLabel: string): Result<(seq<Node>, seq<Warning>), WeightError>
    decreases Size(items), 1
  {
    var filled :- BackfillAll(items);
    BackfillAllSize(items);
    var below :- WalkChildren(filled, parentLabel);
    Ok((below.0, WarnConflicts(filled, parentLabel) + below.1))
  }

  /** The loop of `_walk_sections` over one sibling group's sub-sections. */
  function WalkChildren(items: seq<Node>, parentLabel: string): Result<(seq<Node>, seq<Warning>), WeightError>
    decreases Size(items), 0
  {
    if items == [] then Ok(([], []))
    else
      var head :-
        match items[0]
        case SectionItem(title, children) =>
          var walked :- WalkSections(children, SubLabel(title, parentLabel));
          Ok((SectionItem(title, walked.0), walked.1))
        case _ => Ok((items[0], []));
      var rest :- WalkChildren(items[1..], parentLabel);
      Ok(([head.0] + rest.0, head.1 + rest.1))
  }

  /** `on_nav`: walk the whole navigation, its top level reported under `root`. */
  function OnNav(items: seq<Node>): Result<(seq<Node>, seq<Warning>), WeightError> {
    WalkSections(items, "root")
  }

  // A reference description of the walk: every page back-filled, then every
  // sibling group checked.

  /** A page's metadata once back-filled; metadata whose back-fill fails is left as it is. */
  function Filled(meta: Metadata): (r: Metadata)
    ensures forall k :: k in meta ==> k in r && r[k] == meta[k]
    ensures forall k :: k in r ==> k in meta || k == "weight"
    ensures r != meta ==> "weight" !in meta && "weight" in r && Numeric(r["weight"]).Some?
  {
    if Backfill(meta).Ok? then Backfill(meta).value else meta
  }

  /** The tree with every page's metadata back-filled. */
  function FillNode(n: Node): Node
    decreases n
  {
    match n
    case PageItem(p) => PageItem(p.(meta := Filled(p.meta)))
    case SectionItem(title, children) => SectionItem(title, FillAll(children))
    case LinkItem(_) => n
  }

  function FillAll(items: seq<Node>): (r: seq<Node>)
    ensures |r| == |items|
    decreases items
  {
    if items == [] then [] else [FillNode(items[0])] + FillAll(items[1..])
  }

  lemma {:induction false} FillAllAt(items: seq<Node>, k: nat)
    requires k < |items|
    ensures FillAll(items)[k] == FillNode(items[k])
    decreases |items|
  {
    if k > 0 {
      FillAllAt(items[1..], k - 1);
    }
  }

  /** Does the back-fill of some page in the tree fail? */
  predicate NodeFails(n: Node)
    decreases n
  {
    match n
    case PageItem(p) => Backfill(p.meta).Err?
    case SectionItem(_, children) => AnyFails(children)
    case LinkItem(_) => false
  }

  predicate AnyFails(items: seq<Node>)
    decreases items
  {
    exists k :: 0 <= k < |items| && NodeFails(items[k])
  }

  /**
    The warnings for a tree: its top sibling group's, then each sub-section's
    in order, every sub-section reported under its own title or, when that is
    empty, under its parent's label.
  */
  function TreeWarnings(items: seq<Node>, parentLabel: string): seq<Warning>
    decreases items, 1
  {
    WarnConflicts(items, parentLabel) + SubWarnings(items, parentLabel)
  }

  function SubWarnings(items: seq<Node>, parentLabel: string): seq<Warning>
    decreases items, 0
  {
    if items == [] then []
    else
      (match items[0]
       case SectionItem(title, children) => TreeWarnings(children, SubLabel(title, parentLabel))
       case _ => [])
      + SubWarnings(items[1..], parentLabel)
  }


  // Facts about one back-filled sibling.

  /** Siblings that agree on which are index pages have the same first index page. */
  lemma IndexPositionCongruent(a: seq<Node>, b: seq<Node>)
    requires |a| == |b|
    requires forall k :: 0 <= k < |a| ==> IsIndexPage(a[k]) == IsIndexPage(b[k])
    ensures IndexPosition(a) == IndexPosition(b)
  {
    if IndexPosition(a).Some? && IndexPosition(b).Some? {
      var i, j := IndexPosition(a).value, IndexPosition(b).value;
      assert !(i < j) && !(j < i);
    }
  }

  /** A failing back-fill of a sibling is a failing back-fill of a page in the tree. */
  lemma BackfillNodeFails(n: Node)
    requires BackfillNode(n).Err?
    ensures NodeFails(n)
  {
    if n.SectionItem? {
      var i := IndexPosition(n.children).value;
      assert NodeFails(n.children[i]);
    }
  }

  /** A page whose metadata the back-fill leaves as it is. */
  predicate Settled(p: Page) {
    Filled(p.meta) == p.meta
  }

  lemma FilledSettles(meta: Metadata)
    requires Backfill(meta).Ok?
    ensures Filled(Backfill(meta).value) == Backfill(meta).value
  {
    BackfillIdempotent(meta);
  }

  /**
    A back-filled sibling is the same tree once every page is back-filled, it
    fails exactly where the original did, and its weight page is settled.
  */
  lemma BackfillNodeFill(n: Node)
    requires BackfillNode(n).Ok?
    ensures FillNode(BackfillNode(n).value) == FillNode(n)
    ensures NodeFails(BackfillNode(n).value) == NodeFails(n)
    ensures WeightPage(BackfillNode(n).value).Some? ==> Settled(WeightPage(BackfillNode(n).value).value)
    ensures WeightPage(BackfillNode(n).value).Some? == WeightPage(n).Some?
  {
    match n
    case PageItem(p) =>
      FilledSettles(p.meta);
    case SectionItem(title, cs) =>
      if IndexPosition(cs).Some? {
        BackfillIndexPage(title, cs);
      }
    case LinkItem(_) =>
  }

  /** The section case of `BackfillNodeFill`: the section's index page is back-filled in place. */
  lemma BackfillIndexPage(title: string, cs: seq<Node>)
    requires IndexPosition(cs).Some?
    requires BackfillNode(SectionItem(title, cs)).Ok?
    ensures var cs' := BackfillNode(SectionItem(title, cs)).value.children;
            && FillAll(cs') == FillAll(cs)
            && AnyFails(cs') == AnyFails(cs)
            && IndexPosition(cs') == IndexPosition(cs)
            && Settled(cs'[IndexPosition(cs).value].page)
  {
    var n := SectionItem(title, cs);
    var i := IndexPosition(cs).value;
    var p := cs[i].page;
    FilledSettles(p.meta);
    var cs' := BackfillNode(n).value.children;
    var x := PageItem(p.(meta := Backfill(p.meta).value));
    assert cs' == cs[i := x];
    IndexPositionCongruent(cs', cs);
    assert FillNode(x) == FillNode(cs[i]) && !NodeFails(x) && !NodeFails(cs[i]);
    FillAllUpdate(cs, i, x);
    AnyFailsUpdate(cs, i, x);
  }

  /** Replacing one sibling by one that fills to the same node leaves the filled list as it is. */
  lemma FillAllUpdate(cs: seq<Node>, i: nat, x: Node)
    requires i < |cs| && FillNode(x) == FillNode(cs[i])
    ensures FillAll(cs[i := x]) == FillAll(cs)
  {
    var cs' := cs[i := x];
    forall k | 0 <= k < |cs|
      ensures FillAll(cs')[k] == FillAll(cs)[k]
    {
      FillAllAt(cs', k);
      FillAllAt(cs, k);
    }
  }

  /** Replacing one sibling by one that fails exactly when it does leaves failure as it is. */
  lemma AnyFailsUpdate(cs: seq<Node>, i: nat, x: Node)
    requires i < |cs| && NodeFails(x) == NodeFails(cs[i])
    ensures AnyFails(cs[i := x]) == AnyFails(cs)
  {
    var cs' := cs[i := x];
    assert forall k :: 0 <= k < |cs| ==> NodeFails(cs'[k]) == NodeFails(cs[k]);
  }

  /** Back-filling every page leaves the weight of a sibling whose weight page is settled, and its title, as they are. */
  lemma WeightOfFill(n: Node)
    requires WeightPage(n).Some? ==> Settled(WeightPage(n).value)
    ensures WeightOf(FillNode(n)) == WeightOf(n)
    ensures TitleOf(FillNode(n)) == TitleOf(n)
  {
    if n.SectionItem? {
      var cs := n.children;
      forall k | 0 <= k < |cs|
        ensures IsIndexPage(FillAll(cs)[k]) == IsIndexPage(cs[k])
      {
        FillAllAt(cs, k);
      }
      IndexPositionCongruent(FillAll(cs), cs);
      if IndexPosition(cs).Some? {
        var i := IndexPosition(cs).value;
        FillAllAt(cs, i);
        assert FillAll(cs)[i] == PageItem(cs[i].page);
      }
    }
  }

  /** Siblings with the same weights and titles get the same duplicate-weight report. */
  lemma {:induction false} WeighedCongruent(a: seq<Node>, b: seq<Node>)
    requires |a| == |b|
    requires forall k :: 0 <= k < |a| ==> WeightOf(a[k]) == WeightOf(b[k]) && TitleOf(a[k]) == TitleOf(b[k])
    ensures Weighed(a) == Weighed(b)
    decreases |a|
  {
    if a != [] {
      WeighedCongruent(a[1..], b[1..]);
    }
  }

  /** A list of siblings fails as its first sibling or the rest does. */
  lemma AnyFailsCons(items: seq<Node>)
    requires items != []
    ensures AnyFails(items) <==> NodeFails(items[0]) || AnyFails(items[1..])
  {
    var rest := items[1..];
    if AnyFails(items) && !NodeFails(items[0]) {
      var k :| 0 <= k < |items| && NodeFails(items[k]);
      assert rest[k - 1] == items[k];
    }
    if AnyFails(rest) {
      var k :| 0 <= k < |rest| && NodeFails(rest[k]);
      assert rest[k] == items[k + 1];
    }
  }

  // The walk is the reference description.

  /**
    `_walk_sections` on a tree: it fails exactly when the back-fill of some page
    in the tree fails, and otherwise gives the tree with every page
    back-filled, together with that tree's warnings in walking order.
  */
  lemma {:induction false} WalkIsFillThenCheck(items: seq<Node>, parentLabel: string)
    ensures WalkSections(items, parentLabel).Err? <==> AnyFails(items)
    ensures WalkSections(items, parentLabel).Ok? ==>
              WalkSections(items, parentLabel).value == (FillAll(items), TreeWarnings(FillAll(items), parentLabel))
    decreases Size(items), 1
  {
    match BackfillAll(items)
    case Err(_) =>
      var k :| 0 <= k < |items| && BackfillNode(items[k]).Err?;
      BackfillNodeFails(items[k]);
    case Ok(filled) =>
      BackfillAllSize(items);
      forall k | 0 <= k < |items|
        ensures FillNode(filled[k]) == FillNode(items[k])
        ensures NodeFails(filled[k]) == NodeFails(items[k])
        ensures filled[k].PageItem? ==> Settled(filled[k].page) && !NodeFails(filled[k])
        ensures WeightOf(FillNode(items[k])) == WeightOf(filled[k])
        ensures TitleOf(FillNode(items[k])) == TitleOf(filled[k])
        ensures FillAll(filled)[k] == FillAll(items)[k] == FillNode(items[k])
      {
        BackfillNodeFill(items[k]);
        WeightOfFill(filled[k]);
        FillAllAt(filled, k);
        FillAllAt(items, k);
      }
      assert FillAll(filled) == FillAll(items);
      assert AnyFails(filled) == AnyFails(items);
      WeighedCongruent(FillAll(items), filled);
      WalkChildrenIsFill(filled, parentLabel);
  }

  /** The loop over the sub-sections of a sibling group whose pages are settled. */
  lemma {:induction false} WalkChildrenIsFill(items: seq<Node>, parentLabel: string)
    requires forall k :: 0 <= k < |items| && items[k].PageItem? ==> Settled(items[k].page) && !NodeFails(items[k])
    ensures WalkChildren(items, parentLabel).Err? <==> AnyFails(items)
    ensures WalkChildren(items, parentLabel).Ok? ==>
              WalkChildren(items, parentLabel).value == (FillAll(items), SubWarnings(FillAll(items), parentLabel))
    decreases Size(items), 0
  {
    if items != [] {
      var rest := items[1..];
      WalkChildrenIsFill(rest, parentLabel);
      AnyFailsCons(items);
      match items[0]
      case SectionItem(title, children) =>
        WalkIsFillThenCheck(children, SubLabel(title, parentLabel));
      case PageItem(p) =>
      case LinkItem(_) =>
    }
  }

  /** `on_nav` fails exactly when some page's back-fill fails; otherwise it back-fills every page and reports every sibling group, the top one under `root`. */
  lemma OnNavIsFillThenCheck(items: seq<Node>)
    ensures OnNav(items).Err? <==> AnyFails(items)
    ensures OnNav(items).Ok? ==> OnNav(items).value == (FillAll(items), TreeWarnings(FillAll(items), "root"))
  {
    WalkIsFillThenCheck(items, "root");
  }

  /** Back-filling twice is back-filling once. */
  lemma FilledIdempotent(meta: Metadata)
    ensures Filled(Filled(meta)) == Filled(meta)
  {
    if Backfill(meta).Ok? {
      FilledSettles(meta);
    }
  }

  /** A back-filled tree is settled, and one without failures stays without failures. */
  lemma {:induction false} FillNodeIdempotent(n: Node)
    ensures FillNode(FillNode(n)) == FillNode(n)
    ensures !NodeFails(n) ==> !NodeFails(FillNode(n))
    decreases n
  {
    match n
    case PageItem(p) =>
      FilledIdempotent(p.meta);
      if Backfill(p.meta).Ok? {
        BackfillIdempotent(p.meta);
      }
    case SectionItem(title, children) =>
      FillAllIdempotent(children);
    case LinkItem(_) =>
  }

  lemma {:induction false} FillAllIdempotent(items: seq<Node>)
    ensures FillAll(FillAll(items)) == FillAll(items)
    ensures !AnyFails(items) ==> !AnyFails(FillAll(items))
    decreases items
  {
    forall k | 0 <= k < |items|
      ensures FillNode(FillNode(items[k])) == FillNode(items[k])
      ensures !NodeFails(items[k]) ==> !NodeFails(FillNode(items[k]))
      ensures FillAll(FillAll(items))[k] == FillAll(items)[k] == FillNode(items[k])
    {
      FillNodeIdempotent(items[k]);
      FillAllAt(items, k);
      FillAllAt(FillAll(items), k);
    }
    assert FillAll(FillAll(items)) == FillAll(items);
  }

  /** Running the hook on the navigation it already back-filled changes nothing and logs the same warnings. */
  lemma OnNavIdempotent(items: seq<Node>)
    requires OnNav(items).Ok?
    ensures OnNav(OnNav(items).value.0) == OnNav(items)
  {
    OnNavIsFillThenCheck(items);
    FillAllIdempotent(items);
    OnNavIsFillThenCheck(FillAll(items));
  }
}

=== FILE: weights.dfy ===
/**
  The weight validation run when MkDocs builds its navigation (`on_nav`): every
  page, and every section through its index page, gets a `weight` copied from
  `sidebar_position` when it has none, and every group of siblings is checked
  for weights they share. Warnings are returned as records instead of being
  logged.
*/
module Weights {
  import opened Results
  import opened Strings
  import opened Sequences
  import opened Values
  import opened Nav

  /** `float(text)` raising `ValueError`, which back-fill hits on text such as `--3`. */
  datatype WeightError = InvalidFloat(text: string)

  function Pow10(n: nat): (r: nat)
    ensures r > 0
  {
    if n == 0 then 1 else 10 * Pow10(n - 1)
  }

  /**
    `str(val)` for the `sidebar_position` values back-fill looks at: `int`
    (and so `bool`), `float` (the infinities and NaN included) and `str`;
    nothing for other types.
  */
  function SidebarText(v: Value): (r: Option<string>)
    ensures r.Some? <==> !v.Null? && !v.Other?
    ensures r.Some? ==> r.value == Display(v)
  {
    match v
    case Null => None
    case Other(_, _) => None
    case _ => Some(Display(v))
  }

  /** The test `text.lstrip("-").replace(".", "", 1).isdigit()`. */
  predicate LooksNumeric(text: string) {
    IsDigits(RemoveFirst(StripLeading(text, '-'), '.'))
  }

  /** The digits on either side of the first `.` of an accepted numeral. */
  lemma DigitsAroundPoint(s: string)
    requires '.' in s && AllDigits(RemoveFirst(s, '.'))
    ensures AllDigits(s[..FirstIndex(s, '.')]) && AllDigits(s[FirstIndex(s, '.') + 1..])
  {
    var i := FirstIndex(s, '.');
    var a, b := s[..i], s[i + 1..];
    assert forall j :: 0 <= j < |a| ==> a[j] == (a + b)[j];
    assert forall j :: 0 <= j < |b| ==> b[j] == (a + b)[|a| + j];
  }

  /** The value of the numeral `whole.frac`. */
  function PointValue(whole: string, frac: string): real
    requires AllDigits(whole) && AllDigits(frac)
  {
    DigitsValue(whole) as real + DigitsValue(frac) as real / Pow10(|frac|) as real
  }

  /** The value of an unsigned numeral `whole` or `whole.frac`, either part possibly empty. */
  function DecimalValue(body: string): real
    requires AllDigits(RemoveFirst(body, '.'))
  {
    if '.' in body then
      var i := FirstIndex(body, '.');
      DigitsAroundPoint(body);
      PointValue(body[..i], body[i + 1..])
    else
      DigitsValue(body) as real
  }

  /**
    The text shown for the float an accepted numeral denotes: the whole part
    without leading zeros, a point, and the fraction without trailing zeros (at
    least one digit each side). This is Python's `str(float(text))` only for
    numerals of at most 15 significant digits whose magnitude is zero or lies
    between 1e-4 and 1e16; Python otherwise prints the shortest text that reads
    back as the same double, in exponent notation outside that range.
  */
  function FloatShown(negative: bool, body: string): string {
    var whole := if '.' in body then body[..FirstIndex(body, '.')] else body;
    var frac := if '.' in body then body[FirstIndex(body, '.') + 1..] else "";
    var w := StripLeading(whole, '0');
    var f := StripTrailing(frac, '0');
    (if negative then "-" else "") + (if w == "" then "0" else w) + "." + (if f == "" then "0" else f)
  }

  /** Two or more leading minus signs are exactly a text starting `--`. */
  lemma ManySigns(text: string)
    ensures |text| - |StripLeading(text, '-')| >= 2 <==> StartsWith(text, "--")
  {
    if |text| - |StripLeading(text, '-')| >= 2 {
      SignsStart(text);
    }
    if StartsWith(text, "--") {
      StartSigns(text);
    }
  }

  /** Two stripped signs are the text's first two characters. */
  lemma SignsStart(text: string)
    requires |text| - |StripLeading(text, '-')| >= 2
    ensures StartsWith(text, "--")
  {
    assert text[0] == '-' && text[1] == '-';
    assert text[..2] == "--";
  }

  /** A text starting `--` loses at least those two characters to the strip. */
  lemma StartSigns(text: string)
    requires StartsWith(text, "--")
    ensures |text| - |StripLeading(text, '-')| >= 2
  {
    assert text[0] == '-' && text[1] == '-';
    var rest := text[1..];
    assert StripLeading(text, '-') == StripLeading(rest, '-');
    assert rest[0] == '-' && rest[1..] == text[2..];
    assert StripLeading(rest, '-') == StripLeading(text[2..], '-');
  }

  /** With exactly one leading minus sign, the text is that sign and the rest. */
  lemma OneSign(text: string)
    requires |text| - |StripLeading(text, '-')| == 1
    ensures text == "-" + StripLeading(text, '-')
  {
    var body := StripLeading(text, '-');
    assert body == text[1..];
    assert text[0] == '-';
    assert text == [text[0]] + text[1..];
  }

  /** Digit text passes the numeral test untouched. */
  lemma DigitsLookNumeric(s: string)
    requires IsDigits(s)
    ensures StripLeading(s, '-') == s && RemoveFirst(s, '.') == s && LooksNumeric(s)
  {
    assert !IsDigit('-') && !IsDigit('.');
    assert s[0] != '-';
    assert '.' !in s;
  }

  /** The number an accepted numeral denotes, read with at most one leading minus sign. */
  function SignedValue(text: string): real
    requires LooksNumeric(text)
  {
    var body := StripLeading(text, '-');
    if |text| - |body| == 1 then -DecimalValue(body) else DecimalValue(body)
  }

  /** `float(text)` for text that passed `LooksNumeric`: two leading minus signs make it raise. */
  function ParseFloat(text: string): (r: Result<Value, WeightError>)
    requires LooksNumeric(text)
    ensures r.Err? <==> StartsWith(text, "--")
    ensures r.Ok? ==> r.value.Real? && r.value.r == SignedValue(text)
  {
    if StartsWith(text, "--") then Err(InvalidFloat(text))
    else
      var body := StripLeading(text, '-');
      Ok(Real(SignedValue(text), FloatShown(|text| - |body| == 1, body)))
  }

  /** Python's `int(x)` on a float: truncation toward zero. */
  function Trunc(x: real): int {
    if x >= 0.0 then x.Floor else -((-x).Floor)
  }

  /** `int(val)` for a value whose text is all digits. */
  function IntValue(v: Value): int
    requires SidebarText(v).Some? && IsDigits(SidebarText(v).value)
  {
    match v
    case Int(i) => i
    case Text(s) => DigitsValue(s)
    case Real(x, _) => Trunc(x)
    case _ => 0
  }

  /**
    The weight `_apply_sidebar_weight` derives from a `sidebar_position`
    value: nothing when the value is not numeric-looking, an integer when its
    text is all digits, a float otherwise.
  */
  function SidebarWeight(v: Value): (r: Option<Result<Value, WeightError>>)
    ensures r.None? <==> SidebarText(v).None? || !LooksNumeric(SidebarText(v).value)
    ensures r.Some? && r.value.Ok? ==> Numeric(r.value.value).Some?
    ensures r.Some? && r.value.Ok? ==> (r.value.value.Int? <==> IsDigits(Display(v)))
    ensures r.Some? ==> (r.value.Err? <==> StartsWith(Display(v), "--"))
    ensures r.Some? && IsDigits(Display(v)) && !v.Real? ==> r == Some(Ok(Int(DigitsValue(Display(v)))))
    ensures r.Some? && IsDigits(Display(v)) && v.Real? ==> r == Some(Ok(Int(Trunc(v.r))))
    ensures r.Some? && !IsDigits(Display(v)) ==> r == Some(ParseFloat(Display(v)))
  {
    match SidebarText(v)
    case None => None
    case Some(text) =>
      if !LooksNumeric(text) then None
      else if IsDigits(text) then
        assert !StartsWith(text, "--") by { assert !IsDigit(text[0]) <== text[0] == '-'; }
        Some(Ok(Int(IntValue(v))))
      else Some(ParseFloat(text))
  }

  /** Text that passes the numeral test without being all digits is read as a float. */
  lemma FloatSidebar(v: Value)
    requires SidebarText(v).Some? && LooksNumeric(Display(v)) && !IsDigits(Display(v))
    ensures SidebarWeight(v) == Some(ParseFloat(Display(v)))
  {
  }

  /**
    `_apply_sidebar_weight` on one page's metadata: it fills `weight` only
    when `weight` is missing and `sidebar_position` is present, and changes
    nothing else.
  */
  function Backfill(meta: Metadata): (r: Result<Metadata, WeightError>)
    ensures "weight" in meta || "sidebar_position" !in meta ==> r == Ok(meta)
    ensures "weight" !in meta && "sidebar_position" in meta ==>
              var derived := SidebarWeight(meta["sidebar_position"]);
              && (derived.None? ==> r == Ok(meta))
              && (derived.Some? && derived.value.Ok? ==> r == Ok(meta["weight" := derived.value.value]))
              && (derived.Some? && derived.value.Err? ==> r == Err(derived.value.error))
    ensures r.Ok? ==> forall k :: k in meta ==> k in r.value && r.value[k] == meta[k]
    ensures r.Ok? ==> forall k :: k in r.value ==> k in meta || k == "weight"
    ensures r.Ok? && r.value != meta ==> "weight" !in meta && "weight" in r.value && Numeric(r.value["weight"]).Some?
    ensures r.Err? ==> "weight" !in meta && "sidebar_position" in meta
                       && StartsWith(Display(meta["sidebar_position"]), "--")
  {
    if "weight" in meta || "sidebar_position" !in meta then Ok(meta)
    else
      match SidebarWeight(meta["sidebar_position"])
      case None => Ok(meta)
      case Some(Err(e)) => Err(e)
      case Some(Ok(w)) => Ok(meta["weight" := w])
  }

  /** Back-fill with a numeric-looking `sidebar_position` adds exactly the weight derived from it. */
  lemma BackfillAdds(meta: Metadata, w: Value)
    requires "weight" !in meta && "sidebar_position" in meta
    requires SidebarWeight(meta["sidebar_position"]) == Some(Ok(w))
    ensures Backfill(meta) == Ok(meta["weight" := w])
  {
  }

  /**
    A `sidebar_position` that is not an `int`, `float` or `str`, or whose text
    fails the numeral test, leaves the metadata as it is: `"first"` adds no
    weight.
  */
  lemma BackfillNonNumeric(meta: Metadata)
    requires "sidebar_position" in meta
    requires SidebarText(meta["sidebar_position"]).None? || !LooksNumeric(Display(meta["sidebar_position"]))
    ensures Backfill(meta) == Ok(meta)
  {
  }

  /** A word is not a numeral. */
  lemma WordNotNumeric()
    ensures !LooksNumeric("first")
  {
    assert StripLeading("first", '-') == "first";
    assert RemoveFirst("first", '.') == "first";
    assert !IsDigit("first"[0]);
  }

  /**
    An infinite or NaN `sidebar_position` is a `float`, so `str()` gives
    `inf`, `-inf` or `nan`; none of these passes the numeral test, and the
    metadata stays as it is.
  */
  lemma NonFiniteSidebar(meta: Metadata)
    requires "sidebar_position" in meta
    requires meta["sidebar_position"].Infinite? || meta["sidebar_position"].NotANumber?
    ensures SidebarText(meta["sidebar_position"]).Some?
    ensures Backfill(meta) == Ok(meta)
  {
    NonFiniteText(meta["sidebar_position"]);
    BackfillNonNumeric(meta);
  }

  /** The texts `inf`, `-inf` and `nan` fail the numeral test. */
  lemma NonFiniteText(v: Value)
    requires v.Infinite? || v.NotANumber?
    ensures !LooksNumeric(Display(v))
  {
    var word := Display(v);
    if v.Infinite? && v.negative {
      word := "inf";
      assert Display(v) == "-" + word;
      OptionalSign(true, word);
    }
    assert word[0] != '-' && '.' !in word && !IsDigit(word[0]);
    OptionalSign(false, word);
  }

  /** Back-filling twice is back-filling once. */
  lemma BackfillIdempotent(meta: Metadata)
    requires Backfill(meta).Ok?
    ensures Backfill(Backfill(meta).value) == Backfill(meta)
  {
  }

  /** A whole number, as an `int` or as digit text, becomes that integer weight. */
  lemma BackfillWholeNumber(meta: Metadata, n: nat)
    requires "weight" !in meta && "sidebar_position" in meta
    requires meta["sidebar_position"] == Int(n) || meta["sidebar_position"] == Text(NatToString(n))
    ensures Backfill(meta) == Ok(meta["weight" := Int(n)])
  {
    var v := meta["sidebar_position"];
    var s := NatToString(n);
    if v.Int? {
      assert Display(v) == IntToString(n) == s;
    }
    assert SidebarText(v) == Some(s) && Display(v) == s && !v.Real?;
    DigitsLookNumeric(s);
    assert SidebarWeight(v) == Some(Ok(Int(n)));
    BackfillAdds(meta, Int(n));
  }

  /** The parts of an unsigned numeral `whole.frac`. */
  lemma PointNumeral(whole: string, frac: string)
    requires AllDigits(whole) && AllDigits(frac) && |whole| + |frac| > 0
    ensures var body := whole + "." + frac;
            && '.' in body && FirstIndex(body, '.') == |whole|
            && RemoveFirst(body, '.') == whole + frac
            && IsDigits(whole + frac)
            && DecimalValue(body) == PointValue(whole, frac)
            && (body[0] == '.' || IsDigit(body[0]))
  {
    var body := whole + "." + frac;
    assert body[|whole|] == '.';
    assert forall j :: 0 <= j < |whole| ==> body[j] == whole[j];
    FirstIndexAt(body, '.', |whole|);
    assert body[..|whole|] == whole && body[|whole| + 1..] == frac;
    assert forall j :: 0 <= j < |whole + frac| ==> IsDigit((whole + frac)[j]);
  }

  /** Text with a point somewhere after its leading minus signs is not all digits. */
  lemma PointNotDigits(text: string)
    requires '.' in StripLeading(text, '-')
    ensures !IsDigits(text)
  {
    var body := StripLeading(text, '-');
    var i :| 0 <= i < |body| && body[i] == '.';
    assert text[|text| - |body| + i] == '.';
  }

  /** An optional minus sign in front of a body that does not start with one. */
  lemma OptionalSign(negative: bool, body: string)
    requires body != [] && body[0] != '-'
    ensures var text := (if negative then "-" else "") + body;
            && StripLeading(text, '-') == body
            && |text| - |body| == (if negative then 1 else 0)
  {
    if negative {
      var text := "-" + body;
      assert text[1..] == body;
    }
  }

  /** What the numeral test makes of an optionally signed `whole.frac`. */
  lemma SignedPointText(negative: bool, whole: string, frac: string)
    requires AllDigits(whole) && AllDigits(frac) && |whole| + |frac| > 0
    ensures var body := whole + "." + frac;
            var text := (if negative then "-" else "") + body;
            && StripLeading(text, '-') == body && |text| - |body| == (if negative then 1 else 0)
            && LooksNumeric(text) && !IsDigits(text) && !StartsWith(text, "--")
  {
    var body := whole + "." + frac;
    var text := (if negative then "-" else "") + body;
    PointNumeral(whole, frac);
    OptionalSign(negative, body);
    PointNotDigits(text);
    ManySigns(text);
  }

  /** What `float` makes of an optionally signed `whole.frac`. */
  lemma SignedPointNumeral(negative: bool, whole: string, frac: string)
    requires AllDigits(whole) && AllDigits(frac) && |whole| + |frac| > 0
    ensures var text := (if negative then "-" else "") + (whole + "." + frac);
            && LooksNumeric(text) && !IsDigits(text) && !StartsWith(text, "--")
            && SignedValue(text) == (if negative then -PointValue(whole, frac) else PointValue(whole, frac))
  {
    var body := whole + "." + frac;
    SignedPointText(negative, whole, frac);
    PointNumeral(whole, frac);
    SignedValueOf(negative, body);
  }

  /** The value of an optionally signed numeral is the body's value, negated when signed. */
  lemma SignedValueOf(negative: bool, body: string)
    requires body != [] && body[0] != '-'
    requires LooksNumeric((if negative then "-" else "") + body)
    ensures StripLeading((if negative then "-" else "") + body, '-') == body
    ensures var value := DecimalValue(body);
            SignedValue((if negative then "-" else "") + body) == (if negative then -value else value)
  {
    OptionalSign(negative, body);
  }

  /**
    A numeral with a point, optionally signed, becomes a float weight with the
    value the numeral denotes: `"3.5"` gives 3.5 and `"-.25"` gives -0.25.
  */
  lemma BackfillFraction(meta: Metadata, negative: bool, whole: string, frac: string)
    requires "weight" !in meta && "sidebar_position" in meta
    requires AllDigits(whole) && AllDigits(frac) && |whole| + |frac| > 0
    requires meta["sidebar_position"] == Text((if negative then "-" else "") + (whole + "." + frac))
    ensures Backfill(meta).Ok? && "weight" in Backfill(meta).value
    ensures var w := Backfill(meta).value["weight"];
            w.Real? && w.r == (if negative then -PointValue(whole, frac) else PointValue(whole, frac))
  {
    var text := (if negative then "-" else "") + (whole + "." + frac);
    SignedPointNumeral(negative, whole, frac);
    FloatSidebar(Text(text));
    BackfillAdds(meta, ParseFloat(text).value);
  }

  /** What the numeral test and `float` make of `str(-n)`. */
  lemma NegatedNumeral(n: nat)
    ensures var text := "-" + NatToString(n);
            && LooksNumeric(text) && !IsDigits(text) && !StartsWith(text, "--")
            && SignedValue(text) == -(n as real)
  {
    var s := NatToString(n);
    var text := "-" + s;
    DigitsLookNumeric(s);
    OptionalSign(true, s);
    assert LooksNumeric(text);
    assert !IsDigits(text) by { assert text[0] == '-'; }
    ManySigns(text);
    assert DecimalValue(s) == n as real;
  }

  /** A negative `int` becomes a float weight of the same value. */
  lemma BackfillNegativeInt(meta: Metadata, n: nat)
    requires n > 0
    requires "weight" !in meta && "sidebar_position" in meta && meta["sidebar_position"] == Int(-(n as int))
    ensures Backfill(meta).Ok? && "weight" in Backfill(meta).value
    ensures var w := Backfill(meta).value["weight"];
            w.Real? && w.r == -(n as real)
  {
    var text := "-" + NatToString(n);
    assert Display(Int(-(n as int))) == text;
    NegatedNumeral(n);
    FloatSidebar(Int(-(n as int)));
    BackfillAdds(meta, ParseFloat(text).value);
  }

  /** Text with two leading minus signs passes the digit test but cannot be read as a float. */
  lemma BackfillDoubleMinus(meta: Metadata, digits: string)
    requires IsDigits(digits)
    requires "weight" !in meta && "sidebar_position" in meta && meta["sidebar_position"] == Text("--" + digits)
    ensures Backfill(meta) == Err(InvalidFloat("--" + digits))
  {
    DoubleMinusText(digits);
    assert SidebarWeight(Text("--" + digits)) == Some(ParseFloat("--" + digits));
  }

  /** `--<digits>` passes the numeral test, is not all digits, and starts with two signs. */
  lemma DoubleMinusText(digits: string)
    requires IsDigits(digits)
    ensures var text := "--" + digits;
            LooksNumeric(text) && !IsDigits(text) && StartsWith(text, "--")
  {
    var text := "--" + digits;
    assert text[..2] == "--";
    assert digits[0] != '-';
    OptionalSign(true, digits);
    assert text[1..] == "-" + digits;
    assert StripLeading(text, '-') == StripLeading(text[1..], '-');
    DigitsLookNumeric(digits);
    assert !IsDigit(text[0]);
  }
}
